=== FILE: README.md ===
# Gladiator school: a Dafny model of the game rules

This project models the rules layer of a browser-based gladiator-school idle
game. The game keeps a roster of gladiators, trains and heals them, resolves
arena duels against generated challengers, and hires support staff. All of
that logic lives in `template-example/src/App.jsx`, mixed in with the React
screens. The model keeps the rules and drops the screens.

- A **gladiator** has three attributes: strength, agility and stamina.
  Its maximum health is derived from stamina. It has a status (Idle, Injured,
  Training, Healing or Fighting) and, while busy, a running task (a start
  time and a duration). It also records when it last regenerated.
- The **tick** runs once a second and steps every gladiator on its own. A
  finished training raises one drawn attribute and fully heals. A finished
  heal restores full health. A finished fight clears the task but leaves the
  status at Fighting. A resting, hurt gladiator regains 1 health more than
  5000 ms after its last regeneration, and an Injured one returns to Idle
  once it is full.
- The **arena** builds a challenger from the gladiator's level. Both sides
  then trade strikes, the player always first, until one side reaches 0. The
  outcome goes back to the roster as money, win/loss counts, the
  gladiator's new health and status, and possibly one attribute point.
- The **actions** are recruit, train, heal, dismiss, rename, cheat-mode
  stat editing, hiring staff and listing a new staff candidate.

All of these are pure functions over immutable datatypes. Wall-clock time
(`Date.now()`) is an `int` parameter `now`. Every `Math.random()` draw is a
`real` parameter in [0, 1). The damage draws of a fight are a function from
strike number to draw. Gladiator and staff ids are plain integers.

Files, one module each:

| file | module | models |
|---|---|---|
| `ludus.dfy` | `Ludus` | entities, constants, the game invariant, `find`/`filter`/`Math` helpers |
| `names.dfy` | `Names` | static recruit names and their decimal suffix |
| `combat.dfy` | `Combat` | challenger generation, damage, the strike loop, fight report |
| `tick.dfy` | `Tick` | the per-gladiator tick step and the roster tick |
| `roster.dfy` | `Roster` | gladiator creation, fresh game, recruit/train/heal/fire/rename/edit |
| `staff.dfy` | `Staff` | accountant bonus, hiring, listing static or generated candidates |
| `arena.dfy` | `Arena` | applying a fight outcome; a whole arena visit |
| `scenarios.dfy` | `Scenarios` | train and heal cycles from action to completing tick |

The game invariant (`Ludus.ValidState`) says:

- money is non-negative;
- the roster is non-empty and has distinct ids;
- every gladiator has `0 <= health <= maxHealth == stamina * 10`;
- no staff member, hired or listed, carries a negative bonus.

Every action and the tick are proved to keep it, under the stated conditions.

Modelling choices that differ from a literal reading:

- Health is a `real` throughout. The game really does store fractions in
  it: challenger health is `max(20, stamina * 10)` with a fractional
  stamina, and stat editing rescales health by a ratio. Heal durations are
  fractional for the same reason.
- The two nullable task fields (start and duration) are one `Option<Task>`,
  because the code always sets or clears them together. A start of 0 counts
  as unset, as JavaScript truthiness makes it.
- A task is finished when `(now - start) / duration >= 1` under IEEE
  semantics. That means `now - start >= duration` for a positive duration,
  and `now - start > 0` for a zero one.
- The handlers are modelled as written. The "busy" and "already at full
  health" checks live in the roster screen (lines 527, 586, 594-598), not
  in the handlers. So `Roster.Heal` called at full health charges nothing
  and starts a zero-length heal (`Roster.UnguardedHealAtFullHealth`), and
  `Roster.Train` charges 100 even when no gladiator has the id. The screen's
  guard is the predicate `Roster.HealEnabled`, and under it a heal always
  has a positive duration (`Roster.GuardedHealHasDuration`).
- Three behaviours of the code the model keeps as they are:
  - A finished Fighting task keeps status `Fighting` with no task fields
    until the fight outcome is applied. So the task fields are not present
    exactly while a gladiator is busy: in that window they are cleared
    while the status still reads Fighting.
  - Training raises only the drawn attribute. The maximum health is
    recomputed only when stamina is the one drawn.
  - Staff training/healing speed bonuses are never applied to durations.

## Model

| member | source | states |
|---|---|---|
| `Ludus.AiReply` | template-example/src/App.jsx:1274-1301 | with text generation off or without an API key the call is refused and yields nothing; with both, the handler gets what the call produced, nothing on failure |
| `Ludus.DrawIndex` | template-example/src/App.jsx:1113 | `Math.floor(Math.random() * n)` is an index below `n`, the floor of `r * n` |
| `Ludus.Ceil` | template-example/src/App.jsx:1436 | `Math.ceil`: the least integer at or above its argument |
| `Ludus.PickStat` | template-example/src/App.jsx:1232-1234 | the attribute draw picks strength below 1/3, stamina from 2/3 on, agility in between |
| `Ludus.IndexWhere` | template-example/src/App.jsx:1434 | `find`: the result is the first position whose element satisfies the test, or none exists |
| `Ludus.Filter` | template-example/src/App.jsx:1464 | `filter`: every kept element of the input is in the result, nothing else is, and the result is shorter unless all are kept |
| `Ludus.FilterConcat` | template-example/src/App.jsx:1464 | filtering a concatenation is the concatenation of the filtered parts, so kept elements stay in their order |
| `Ludus.FilterAllKept` | template-example/src/App.jsx:1464 | when every element passes, `filter` returns the same sequence |
| `Ludus.FilterDropsOne` | template-example/src/App.jsx:1464 | when exactly one position fails the test, `filter` cuts out that position and keeps the rest in order |
| `Names.DecimalRoundTrip` | template-example/src/App.jsx:1323-1326 | reading back the decimal rendering of a pass number gives that number |
| `Names.StaticNameInjective` | template-example/src/App.jsx:1318-1327 | two different counter values never produce the same static name |
| `Names.StaticNameShape` | template-example/src/App.jsx:1318-1327 | on the first pass the name is the static name plus a trailing space; later passes end in the pass number counted from 2 |
| `Combat.OpponentLevel` | template-example/src/App.jsx:661-665 | the challenger level lies between 0.9 and 1.1 times the gladiator's attribute sum |
| `Combat.StatOffset` | template-example/src/App.jsx:666-669 | the per-attribute jitter lies in [-3, 2] |
| `Combat.GenerateOpponent` | template-example/src/App.jsx:660-681 | challenger strength, agility and stamina are at least 1; health equals maxHealth, at least 20 and equal to max(20, 10 × stamina); strength and agility are a third of the level jittered by -3..+2; stamina is at least 1 and otherwise the level less the unclamped jittered strength and agility; the attributes total at least the level and, for a non-negative base level, at most the level + 8 |
| `Combat.Damage` | template-example/src/App.jsx:704-707 | a strike deals at least 1, and between the strength and 1.2 times it for a positive strength |
| `Combat.Resolve` | template-example/src/App.jsx:694-736 | the log is an opening line, well-ordered strike lines and a closing line naming the outcome; win exactly when the player keeps health, which never exceeds what the player brought; when either side enters at 0 health or less no strike is exchanged (the log is just the two lines) and the player keeps the health brought |
| `Combat.ResolveFollowsRolls` | template-example/src/App.jsx:703-731 | each strike line of the report deals `Damage` of the attacker's strength and its roll and leaves the target at its previous health less that damage, floored at 0; the reported player health is what the last retaliation left |
| `Combat.BoutFollowsRolls` | template-example/src/App.jsx:703-729 | strike `i` deals the damage of the attacker's strength and roll `k + i`, and leaves the target at `max(0, previous health - damage)`; both final healths are what the last strike on each side left |
| `Combat.WellOrderedRound` | template-example/src/App.jsx:703-729 | one round (player strike, then retaliation) prefixed to a well-ordered log keeps it well-ordered |
| `Combat.BoutStrikes` | template-example/src/App.jsx:703-729 | strikes alternate with the player first, name the right attacker, deal at least 1, and all but the last leave the target standing, so nobody strikes after a knockout |
| `Combat.BoutHealth` | template-example/src/App.jsx:703-731 | healths stay within [0, start]; when the challenger starts with health exactly one side ends at 0, and the last strike is the knockout |
| `Combat.BoutLength` | template-example/src/App.jsx:703-729 | the loop terminates within 2 × ceil(challenger health) strikes because each round costs the challenger at least 1 |
| `Combat.Decisive` | template-example/src/App.jsx:715-736 | a win ends on the player's knockout strike, a loss of a healthy player on the challenger's, and a loss means player health 0 |
| `Combat.StrikeLoop` | template-example/src/App.jsx:699-729 | the imperative strike loop with its early break produces exactly the strike lines and final player health of the recursive `Bout` |
| `Combat.StartFight` | template-example/src/App.jsx:694-736 | the loop followed by the closing line computes exactly the report of `Resolve` |
| `Tick.CompleteMeansProgressReachedOne` | template-example/src/App.jsx:1221-1223 | for a non-zero duration, the completion test is exactly `(now - start) / duration >= 1` |
| `Tick.TrainingGain` | template-example/src/App.jsx:1235-1239 | training gains 2 exactly when cheat mode and double training gain are both on, otherwise 1 |
| `Tick.TickGladiator` | template-example/src/App.jsx:1212-1268 | a finished task clears the task; finished training is Idle at full health with only the drawn attribute raised by the gain, maxHealth recomputed exactly when stamina is drawn, and every other field (lastPassiveHeal included) kept; finished healing is Idle at full health; a finished fight stays Fighting; an unfinished task changes nothing; otherwise the gladiator changes exactly when passive healing is due, gaining up to 1 health, stamping `now`, and leaving Injured once full |
| `Tick.TickPreservesValid` | template-example/src/App.jsx:1212-1268 | the tick step keeps `0 <= health <= maxHealth == stamina * 10` |
| `Tick.TickRosterPreservesValid` | template-example/src/App.jsx:1209-1271 | the roster tick keeps every gladiator valid, the ids distinct and in place |
| `Tick.QuietTickIsIdentity` | template-example/src/App.jsx:1210-1270 | when no task is running and no regeneration is due, the roster is left equal to itself |
| `Tick.TickGame` | template-example/src/App.jsx:1209-1271 | the tick changes only the roster, stepping each gladiator with the cheat settings in force |
| `Tick.TickGamePreservesValid` | template-example/src/App.jsx:1209-1271 | the tick keeps the game invariant |
| `Roster.AttributeRoll` | template-example/src/App.jsx:1113 | a new attribute lies in 5..10 |
| `Roster.CreateGladiator` | template-example/src/App.jsx:1112-1127 | a new gladiator has attributes in 5..10, health = maxHealth = stamina × 10, Idle status and no task |
| `Roster.InitialGameState` | template-example/src/App.jsx:1130-1146 | a fresh game is valid: 1000 money, one Idle "Player One" at full health (50..100), no staff, the first three static candidates listed, zeroed counters, default settings |
| `Roster.Recruit` | template-example/src/App.jsx:1307-1337 | below 250 nothing changes. With text generation off, 250 is charged, the counter advances, and one gladiator made by `CreateGladiator` with the counter's static name is appended (attributes 5..10, full health, Idle, no task). With it on, a missing or empty reply (refused or failed call) changes nothing; a non-empty one charges 250, leaves the counter alone and appends `CreateGladiator` with that name |
| `Roster.RecruitNamesDiffer` | template-example/src/App.jsx:1318-1330 | with text generation off, recruits made at different counter values get different names |
| `Roster.UpdateWherePreservesValid` | template-example/src/App.jsx:1420-1430 | updating the gladiators with an id by an id- and validity-keeping function keeps the roster valid |
| `Roster.Train` | template-example/src/App.jsx:1408-1431 | without 100 nothing changes; otherwise exactly 100 is charged and only gladiators with the id change, to Training with a 10000 ms task from `now` |
| `Roster.HealingCost` | template-example/src/App.jsx:1436 | for a valid gladiator the cost is between 0 and 5 × maxHealth, zero exactly at full health, and at least 5 per missing point |
| `Roster.Heal` | template-example/src/App.jsx:1433-1459 | an unknown id or too little money changes nothing; otherwise the cost is charged and only gladiators with the id change, to Healing for 200 ms per missing point |
| `Roster.GuardedHealHasDuration` | template-example/src/App.jsx:594-598 | a heal the roster screen allows has a positive duration |
| `Roster.UnguardedHealAtFullHealth` | template-example/src/App.jsx:1433-1459 | the handler called at full health charges nothing and starts a zero-length heal |
| `Roster.Fire` | template-example/src/App.jsx:1461-1471 | with one gladiator or an unknown id nothing changes; otherwise exactly the gladiators with the id are removed and the rest kept; with distinct ids the dismissed position is cut out and the others keep their order |
| `Roster.WithoutIdSplice` | template-example/src/App.jsx:1464 | with distinct ids, removing a present id cuts out its one position, the others keeping their order |
| `Roster.WithoutIdDistinct` | template-example/src/App.jsx:1464 | removing an id from a roster with distinct ids keeps them distinct |
| `Roster.WithoutIdRemovesOne` | template-example/src/App.jsx:1464 | with distinct ids, removing a present id shortens the roster by exactly one |
| `Roster.FireRemovesOne` | template-example/src/App.jsx:1461-1471 | dismissing an existing gladiator from a roster of two or more removes one and never empties it |
| `Roster.Rename` | template-example/src/App.jsx:1473-1477 | only the names of gladiators with the id change |
| `Roster.Rescale` | template-example/src/App.jsx:1497-1508 | stat editing overwrites the attributes, sets maxHealth to stamina × 10, and keeps the health/maxHealth ratio |
| `Roster.RescalePreservesValid` | template-example/src/App.jsx:1495-1512 | editing to a non-negative stamina keeps `0 <= health <= maxHealth == stamina * 10` |
| `Roster.EditStats` | template-example/src/App.jsx:1495-1512 | only gladiators with the id are rescaled |
| `Roster.SetStatus` | template-example/src/App.jsx:1479-1493 | only gladiators with the id get the status and a task of the given duration from `now` |
| `Roster.RecruitPreservesValid` | template-example/src/App.jsx:1307-1337 | recruiting with a fresh id keeps the game invariant |
| `Roster.TrainPreservesValid` | template-example/src/App.jsx:1408-1431 | training keeps the game invariant, money included |
| `Roster.HealPreservesValid` | template-example/src/App.jsx:1433-1459 | healing keeps the game invariant, money included |
| `Roster.FirePreservesValid` | template-example/src/App.jsx:1461-1471 | dismissal keeps the game invariant, the roster non-empty |
| `Roster.RenamePreservesValid` | template-example/src/App.jsx:1473-1477 | renaming keeps the game invariant |
| `Roster.EditStatsPreservesValid` | template-example/src/App.jsx:1495-1512 | editing to a non-negative stamina keeps the game invariant |
| `Roster.SetStatusPreservesValid` | template-example/src/App.jsx:1479-1493 | starting a task keeps the game invariant |
| `Staff.StaticCandidatesValid` | template-example/src/App.jsx:233-270 | the static candidates carry no id and no negative bonus |
| `Staff.AccountantBonus` | template-example/src/App.jsx:1516-1517 | the bonus is that of the first Accountant on staff, 0 without one, never negative for valid staff |
| `Staff.FightWinnings` | template-example/src/App.jsx:1536 | a win pays at least 200, exactly 200 without an Accountant |
| `Staff.AccountantWinnings` | template-example/src/App.jsx:1536 | with the static Accountant first on staff a win pays 220 |
| `Staff.Hire` | template-example/src/App.jsx:1592-1607 | without the cost nothing changes; otherwise the cost is charged, the member appended to staff, and exactly the listings with its `id \|\| name` key removed; a hire with no listing of its key leaves the listing unchanged |
| `Staff.HireUnlistsOne` | template-example/src/App.jsx:1592-1607 | hiring the one listing with the hire's key cuts out that position, the other listings keeping their order |
| `Staff.HirePreservesValid` | template-example/src/App.jsx:1592-1607 | hiring a listed member keeps the game invariant |
| `Staff.Unhired` | template-example/src/App.jsx:1389-1393 | the unhired candidates are exactly the static ones whose name is neither hired nor listed |
| `Staff.AiStaffMember` | template-example/src/App.jsx:1374-1385 | a generated member carries id `now`, the reply's name and role, a cost in 300..799, a training-speed effect exactly when the kind draw is below 1/2 (healing speed otherwise), and a value in [0.05, 0.15) |
| `Staff.GenerateStaff` | template-example/src/App.jsx:1366-1406 | only the listing changes. With text generation off: with no unhired candidate nothing changes, otherwise one unhired static candidate, with a name neither hired nor listed, is put in front. With it on: a missing reply, or one whose name or role is empty, changes nothing; otherwise the member made from it is put in front |
| `Staff.GenerateStaffKeepsNamesFresh` | template-example/src/App.jsx:1388-1405 | listing a static candidate keeps listed names distinct from each other and, when they were, from every hired name |
| `Staff.GenerateStaffPreservesValid` | template-example/src/App.jsx:1366-1406 | listing a static or generated candidate keeps the game invariant |
| `Arena.WinChance` | template-example/src/App.jsx:1539-1541 | the post-fight gain chance is the cheat setting in cheat mode, otherwise 60 |
| `Arena.PostFightGain` | template-example/src/App.jsx:1543-1557 | exactly the drawn attribute rises by 1; a stamina gain sets maxHealth = stamina × 10 and health = min(maxHealth, health + 10); every other field (lastPassiveHeal, status, task, id, name) is kept; validity is kept |
| `Arena.ApplyFightOutcome` | template-example/src/App.jsx:1514-1561 | a win adds the winnings and a win, a loss only a loss; only the fighter changes, to Idle exactly when the final health is positive, otherwise Injured, with that health and no task, plus the stat gain on a lucky win |
| `Arena.FightOutcomePreservesValid` | template-example/src/App.jsx:1514-1561 | a final health within [0, maxHealth] keeps the game invariant |
| `Arena.Fight` | template-example/src/App.jsx:694-742 | an arena visit reports the resolved duel and counts exactly one win or loss, a win exactly on a won duel; money rises by the winnings on a win and is unchanged on a loss; staff, listing, settings and name counter are kept; gladiators with another id are untouched; the fighter leaves resting with the duel's final health and no task, plus the drawn attribute point on a lucky win, with no trace of the interim Fighting mark |
| `Arena.FightPreservesValid` | template-example/src/App.jsx:694-742 | an arena visit keeps the game invariant and leaves the fighter resting with no task, Injured exactly on a loss |
| `Scenarios.TrainingCycle` | template-example/src/App.jsx:1408-1431 | training from 1000 leaves 900; the tick 10 s later rests the gladiator at full health with only the drawn attribute +1 |
| `Scenarios.TrainingDrawPicksStat` | template-example/src/App.jsx:1230-1243 | a training finished by the tick raises strength for a draw below 1/3, agility below 2/3, and otherwise stamina with maxHealth +10, leaving the other attributes as they were |
| `Scenarios.HealingCycle` | template-example/src/App.jsx:1433-1459 | healing at 10/50 costs 200 and takes 8000 ms, after which the tick restores 50 and rests the gladiator |

## Left out

- Every React screen, modal, chart and menu, and the roster screen's
  presentation, is left out: it is presentation.
- The text of log lines (`toFixed(0)` formatting) is left out. Log entries
  are a datatype carrying the same data.
- `taskProgress` is left out. It is only drawn as a progress bar. For a
  zero duration it would hold NaN or -Infinity, which a `real` cannot
  represent. Completion is decided from start and duration, as in the code.
- Loading and saving the game in local storage (JSON) is left out: it is
  I/O.
- The text-generation call itself (prompt, request, reply cleanup) is left
  out: it is a network call. Its reply is a parameter of `Roster.Recruit`
  and `Staff.GenerateStaff`, gated by `Ludus.AiReply`: with text generation
  off, without an API key, or when the call fails, there is no reply. The static branches are the
  ones taken with text generation off.
- Splitting a generated staff reply at its commas and trimming the parts
  is left out. `Staff.GenerateStaff` takes the resulting name and role.
- Concurrent recruits during a text-generation call are left out. The
  handler checks the money before the call (line 1308) and charges 250 from
  the latest money after it (line 1330). So a second click while the call
  runs can take money below 0. The model applies `Roster.Recruit` at once,
  and its check and charge see the same money.
- Gossip and the generated fight summary are left out: they only produce
  modal text and change no game state.
- `setInterval`/`setTimeout` scheduling is left out. The model applies
  operations one at a time, and `Arena.Fight` applies a whole arena visit
  at once. In the game the fight's outcome arrives 60 s after the click,
  and `handleFight` builds the new roster from the roster captured at the
  click (line 1522) and writes it back whole (line 1588). Every roster
  change made during those 60 s is therefore undone: tick regeneration and
  task completions, recruits (whose 250 stays spent, since money is
  updated from its latest value), dismissals, renames, trainings and
  heals. The model does not represent that interleaving.
- The scout's estimate range is left out: it is display-only rounding.
- Floating-point rounding is left out. The model computes in exact reals,
  so `Math.floor(200 * 1.1)` is 220 in both.
- The random gladiator id `Date.now() + Math.random()` is left out. Ids are
  integer parameters, and recruiting assumes a fresh one.
- `Roster.EditStats`: requires every targeted gladiator to have a non-zero
  maxHealth. The code divides by it and would store NaN as health, which
  the model cannot represent.
- `Roster.EditStatsPreservesValid`: proved only for a non-negative new
  stamina. The editor's number field accepts negatives, and those give a
  negative maxHealth.
- Trimming and the non-empty check on a new name are left out. They happen
  in the rename dialog, and `Roster.Rename` models the handler itself.
- `Combat.GenerateOpponent`: makes no claim about how random the draws are.
  It states only bounds that hold for every draw.
- A missing `cheatMode` in a loaded save (`?.` chaining) is left out. The
  settings record always carries one.

=== FILE: arena.dfy ===
/** Applying a fight's outcome to the school, and the arena visit as a whole:
    pick a resting gladiator, generate a challenger, resolve the duel and
    settle the result. */
module Arena {
  import opened Ludus
  import opened Combat
  import Roster
  import Staff

  /** Percentage chance of a post-fight attribute gain: the cheat setting
      when cheat mode is on, 60 otherwise. */
  function WinChance(c: CheatMode): (p: real)
    ensures !c.enabled ==> p == 60.0
    ensures c.enabled ==> p == c.postFightStatChance
  {
    if c.enabled then c.postFightStatChance else DefaultPostFightStatChance
  }

  /** The gladiator as a fight leaves it: resting (injured when it has no
      health left) with the fight's final health and no task. */
  function Settle(g: Gladiator, finalHealth: real): Gladiator {
    g.(status := if finalHealth > 0.0 then Idle else Injured, health := finalHealth, task := None)
  }

  /** One attribute point gained through combat. A stamina gain raises
      maxHealth with it and restores up to 10 health. */
  function PostFightGain(g: Gladiator, pick: Stat): (r: Gladiator)
    ensures r.Get(pick) == g.Get(pick) + 1
    ensures forall t :: t != pick ==> r.Get(t) == g.Get(t)
    ensures pick == Stamina ==>
      r.maxHealth == r.stamina * 10 && r.health == MinR(r.maxHealth as real, g.health + 10.0)
    ensures pick != Stamina ==> r.maxHealth == g.maxHealth && r.health == g.health
    ensures r.id == g.id && r.name == g.name && r.status == g.status && r.task == g.task
    ensures r == g.(strength := r.strength, agility := r.agility, stamina := r.stamina,
                    maxHealth := r.maxHealth, health := r.health)
    ensures ValidGladiator(g) ==> ValidGladiator(r)
  {
    var raised := g.Raise(pick, 1);
    if pick == Stamina then
      raised.(maxHealth := raised.stamina * 10,
              health := MinR((raised.stamina * 10) as real, raised.health + 10.0))
    else raised
  }

  /** Whether the post-fight draw grants a gain: `Math.random() * 100 < chance`. */
  predicate GainsStat(c: CheatMode, chance: real) {
    chance * 100.0 < WinChance(c)
  }

  /** The roster update of a finished fight. On a win: the winnings (scaled by
      the first accountant's bonus) and a win are counted, and with the draw's
      chance one attribute rises. On a loss only a loss is counted. */
  function ApplyFightOutcome(s: GameState, id: int, outcome: Outcome, finalHealth: real,
                             chance: real, pick: Stat): (r: GameState)
    ensures |r.gladiators| == |s.gladiators|
    ensures r.staff == s.staff && r.availableStaff == s.availableStaff && r.settings == s.settings
    ensures r.counters.nameCounter == s.counters.nameCounter
    ensures outcome == Win ==>
      && r.money == s.money + Staff.FightWinnings(s.staff)
      && r.counters.wins == s.counters.wins + 1 && r.counters.losses == s.counters.losses
    ensures outcome == Loss ==>
      && r.money == s.money
      && r.counters.losses == s.counters.losses + 1 && r.counters.wins == s.counters.wins
    ensures forall i :: 0 <= i < |s.gladiators| && s.gladiators[i].id != id ==>
      r.gladiators[i] == s.gladiators[i]
    ensures forall i :: 0 <= i < |s.gladiators| && s.gladiators[i].id == id ==>
      var g, h := s.gladiators[i], r.gladiators[i];
      && h.id == id && h.name == g.name
      && (h.status == Idle <==> finalHealth > 0.0)
      && (h.status == Injured <==> finalHealth <= 0.0)
      && h.task.None?
      && (if outcome == Win && GainsStat(s.settings.cheatMode, chance)
          then h == PostFightGain(Settle(g, finalHealth), pick)
          else h == Settle(g, finalHealth))
  {
    var settled := Roster.UpdateWhere(s.gladiators, id, (g: Gladiator) => Settle(g, finalHealth));
    if outcome == Win then
      var gained :=
        if GainsStat(s.settings.cheatMode, chance)
        then Roster.UpdateWhere(settled, id, (g: Gladiator) => PostFightGain(g, pick))
        else settled;
      s.(money := s.money + Staff.FightWinnings(s.staff),
         counters := s.counters.(wins := s.counters.wins + 1),
         gladiators := gained)
    else
      s.(counters := s.counters.(losses := s.counters.losses + 1), gladiators := settled)
  }

  /** The game invariant survives a fight outcome whose final health lies
      within the fighter's range. */
  lemma FightOutcomePreservesValid(s: GameState, id: int, outcome: Outcome, finalHealth: real,
                                   chance: real, pick: Stat)
    requires ValidState(s)
    requires forall i :: 0 <= i < |s.gladiators| && s.gladiators[i].id == id ==>
      0.0 <= finalHealth <= s.gladiators[i].maxHealth as real
    ensures ValidState(ApplyFightOutcome(s, id, outcome, finalHealth, chance, pick))
  {
    var r := ApplyFightOutcome(s, id, outcome, finalHealth, chance, pick);
    assert Staff.FightWinnings(s.staff) >= 200;
    forall i | 0 <= i < |r.gladiators|
      ensures ValidGladiator(r.gladiators[i])
    {
      if s.gladiators[i].id == id {
        assert ValidGladiator(Settle(s.gladiators[i], finalHealth));
      }
    }
  }

  /** A whole arena visit for the gladiator at position `k`: the challenger is
      generated from a snapshot of the gladiator, the gladiator is marked as
      fighting, the duel is resolved on the snapshot, and the outcome is
      applied once the fight's delay has passed. */
  function Fight(s: GameState, k: nat, od: OpponentDraws, rolls: nat -> real, now: int,
                 chance: real, pick: Stat): (result: (FightReport, GameState))
    requires k < |s.gladiators| && ValidDraws(od) && ValidRolls(rolls)
    ensures result.0 == Resolve(PlayerSide(s.gladiators[k]), OpponentSide(GenerateOpponent(s.gladiators[k], od)), rolls)
    ensures result.1.counters.wins + result.1.counters.losses == s.counters.wins + s.counters.losses + 1
    ensures result.0.outcome == Win <==> result.1.counters.wins == s.counters.wins + 1
    ensures result.1.money == s.money + (if result.0.outcome == Win then Staff.FightWinnings(s.staff) else 0)
    ensures result.1.staff == s.staff && result.1.availableStaff == s.availableStaff
    ensures result.1.settings == s.settings && result.1.counters.nameCounter == s.counters.nameCounter
    ensures |result.1.gladiators| == |s.gladiators|
    ensures forall i :: 0 <= i < |s.gladiators| && s.gladiators[i].id != s.gladiators[k].id ==>
      result.1.gladiators[i] == s.gladiators[i]
    // the fighter leaves with the duel's final health, the interim Fighting
    // mark leaving no trace, plus a point on a lucky win
    ensures var settled := Settle(s.gladiators[k], result.0.playerHealth);
      result.1.gladiators[k] ==
        if result.0.outcome == Win && GainsStat(s.settings.cheatMode, chance)
        then PostFightGain(settled, pick) else settled
  {
    var g := s.gladiators[k];
    var o := GenerateOpponent(g, od);
    var fighting := Roster.SetStatus(s, g.id, Fighting, FightDuration, now);
    var report := Resolve(PlayerSide(g), OpponentSide(o), rolls);
    (report, ApplyFightOutcome(fighting, g.id, report.outcome, report.playerHealth, chance, pick))
  }

  /** An arena visit keeps the game invariant, and the fighter leaves it
      resting with no task, injured exactly on a loss. */
  lemma FightPreservesValid(s: GameState, k: nat, od: OpponentDraws, rolls: nat -> real, now: int,
                            chance: real, pick: Stat)
    requires ValidState(s)
    requires k < |s.gladiators| && ValidDraws(od) && ValidRolls(rolls)
    ensures var (report, r) := Fight(s, k, od, rolls, now, chance, pick);
      && ValidState(r)
      && r.gladiators[k].id == s.gladiators[k].id
      && (r.gladiators[k].status == Injured <==> report.outcome == Loss)
      && r.gladiators[k].status != Fighting
      && r.gladiators[k].task.None?
  {
    var g := s.gladiators[k];
    var o := GenerateOpponent(g, od);
    var fighting := Roster.SetStatus(s, g.id, Fighting, FightDuration, now);
    Roster.SetStatusPreservesValid(s, g.id, Fighting, FightDuration, now);
    var report := Resolve(PlayerSide(g), OpponentSide(o), rolls);
    forall i | 0 <= i < |fighting.gladiators| && fighting.gladiators[i].id == g.id
      ensures 0.0 <= report.playerHealth <= fighting.gladiators[i].maxHealth as real
    {
      assert i == k;
    }
    FightOutcomePreservesValid(fighting, g.id, report.outcome, report.playerHealth, chance, pick);
  }
}

=== FILE: combat.dfy ===
/** The arena: generating a challenger scaled to a gladiator, and resolving a
    duel between the two as an alternating exchange of strikes. */
module Combat {
  import opened Ludus

  // ---------------------------------------------------------------------------
  // Opponent generation
  // ---------------------------------------------------------------------------

  /** A challenger exists only for one arena visit. Its stamina and health can
      be fractional because its level is the gladiator's level scaled by a
      real difficulty factor. */
  datatype Opponent = Opponent(
    name: string,
    strength: int,
    agility: int,
    stamina: real,
    health: real,
    maxHealth: real)

  /** The four `Math.random()` draws opponent generation makes, in call order. */
  datatype OpponentDraws = OpponentDraws(difficulty: real, strengthOffset: real, agilityOffset: real, name: real)

  predicate ValidDraws(d: OpponentDraws) {
    IsDraw(d.difficulty) && IsDraw(d.strengthOffset) && IsDraw(d.agilityOffset) && IsDraw(d.name)
  }

  const ChallengerNames: seq<string> := ["Gaius", "Titus", "Felix", "Secundus"]

  /** The level a gladiator is measured by: the sum of its three attributes. */
  function BaseLevel(g: Gladiator): int {
    g.strength + g.agility + g.stamina
  }

  /** The challenger's level: the base level scaled by a factor in [0.9, 1.1). */
  function OpponentLevel(g: Gladiator, difficulty: real): (level: real)
    requires IsDraw(difficulty)
    ensures BaseLevel(g) >= 0 ==> 0.9 * BaseLevel(g) as real <= level <= 1.1 * BaseLevel(g) as real
  {
    var b := BaseLevel(g) as real;
    var m := 0.9 + difficulty * 0.2;
    assert b >= 0.0 ==> b * 0.9 <= b * m <= b * 1.1 by {
      if b >= 0.0 {
        assert b * m == b * 0.9 + b * (difficulty * 0.2);
        assert 0.0 <= b * (difficulty * 0.2) <= b * 0.2;
      }
    }
    b * m
  }

  /** The per-attribute jitter `Math.floor(Math.random() * 6) - 3`. */
  function StatOffset(r: real): (d: int)
    requires IsDraw(r)
    ensures -3 <= d <= 2
  {
    DrawIndex(r, 6) - 3
  }

  function GenerateOpponent(g: Gladiator, d: OpponentDraws): (o: Opponent)
    requires ValidDraws(d)
    ensures o.strength >= 1 && o.agility >= 1 && o.stamina >= 1.0
    ensures o.health == o.maxHealth >= 20.0
    // health follows the clamped stamina, with a floor of 20
    ensures o.maxHealth == MaxR(20.0, 10.0 * o.stamina)
    // strength and agility are a third of the level, jittered by -3..+2
    ensures var third := (OpponentLevel(g, d.difficulty) / 3.0).Floor;
      && Max(1, third - 3) <= o.strength <= Max(1, third + 2)
      && Max(1, third - 3) <= o.agility <= Max(1, third + 2)
    // clamping only ever adds: the attributes total at least the level
    ensures OpponentLevel(g, d.difficulty) <= o.strength as real + o.agility as real + o.stamina
    // stamina is what the level leaves after the jittered, unclamped strength and agility
    ensures var level := OpponentLevel(g, d.difficulty);
      var third := (level / 3.0).Floor;
      o.stamina == MaxR(1.0, level - (third + StatOffset(d.strengthOffset)) as real
                                   - (third + StatOffset(d.agilityOffset)) as real)
    // and clamping adds at most 8 to the total
    ensures BaseLevel(g) >= 0 ==>
      o.strength as real + o.agility as real + o.stamina <= OpponentLevel(g, d.difficulty) + 8.0
    ensures o.name == "Challenger " + ChallengerNames[DrawIndex(d.name, 4)]
  {
    var level := OpponentLevel(g, d.difficulty);
    var str := (level / 3.0).Floor + StatOffset(d.strengthOffset);
    var agi := (level / 3.0).Floor + StatOffset(d.agilityOffset);
    var stam := level - str as real - agi as real;
    var health := MaxR(20.0, stam * 10.0);
    Opponent(
      "Challenger " + ChallengerNames[DrawIndex(d.name, 4)],
      Max(1, str),
      Max(1, agi),
      MaxR(1.0, stam),
      health,
      health)
  }

  // ---------------------------------------------------------------------------
  // Combat resolution
  // ---------------------------------------------------------------------------

  /** One side of a duel: what the resolver reads of a gladiator or challenger. */
  datatype Combatant = Combatant(name: string, strength: int, health: real)

  function PlayerSide(g: Gladiator): Combatant {
    Combatant(g.name, g.strength, g.health)
  }

  function OpponentSide(o: Opponent): Combatant {
    Combatant(o.name, o.strength, o.health)
  }

  /** One line of the fight log. Strike lines record the damage and the health
      the struck side has left. */
  datatype Entry =
    | Opening(player: string, opponent: string)
    | PlayerStrike(attacker: string, damage: int, left: real)
    | OpponentStrike(attacker: string, damage: int, left: real)
    | Victory(winner: string)
    | Defeat(loser: string)
  {
    predicate IsStrike() { PlayerStrike? || OpponentStrike? }
  }

  datatype Outcome = Win | Loss

  /** What the strike loop leaves behind: both healths and the strike lines. */
  datatype Exchange = Exchange(playerHealth: real, opponentHealth: real, strikes: seq<Entry>)

  /** What a fight reports back to the roster. */
  datatype FightReport = FightReport(outcome: Outcome, playerHealth: real, log: seq<Entry>)

  /** The random draws of a fight, one per strike, indexed in strike order. */
  ghost predicate ValidRolls(rolls: nat -> real) {
    forall k :: IsDraw(rolls(k))
  }

  /** `max(1, floor(strength * (1 + 0.2 * r)))`: at least the strength, less
      than 1.2 times it, and never below 1. */
  function Damage(strength: int, r: real): (d: int)
    requires IsDraw(r)
    ensures d >= 1
    ensures strength >= 1 ==> strength <= d && d as real <= 1.2 * strength as real
    ensures strength <= 0 ==> d == 1
  {
    var s := strength as real;
    var t := r * 0.2;
    var scaled := s * (1.0 + t);
    assert 0.0 <= t <= 0.2;
    assert scaled == s + s * t;
    assert s >= 0.0 ==> s <= scaled <= 1.2 * s by {
      if s >= 0.0 {
        assert s * t >= 0.0 by { assert s * t >= s * 0.0; }
        assert s * t <= s * 0.2 by { assert s * (0.2 - t) >= 0.0; }
      }
    }
    assert s <= 0.0 ==> scaled <= 0.0 by {
      if s <= 0.0 {
        assert (-s) * (1.0 + t) >= 0.0;
      }
    }
    Max(1, scaled.Floor)
  }

  /** The strike loop from strike number `k` on. Each round the player strikes;
      if the opponent is still standing it strikes back; the loop stops as
      soon as either side has no health left. */
  function Bout(p: Combatant, e: Combatant, rolls: nat -> real, k: nat): (x: Exchange)
    requires ValidRolls(rolls)
    decreases e.health.Floor
  {
    if !(p.health > 0.0 && e.health > 0.0) then Exchange(p.health, e.health, [])
    else
      var pd := Damage(p.strength, rolls(k));
      var eh := MaxR(0.0, e.health - pd as real);
      var hit := PlayerStrike(p.name, pd, eh);
      if eh <= 0.0 then Exchange(p.health, eh, [hit])
      else
        var ed := Damage(e.strength, rolls(k + 1));
        var ph := MaxR(0.0, p.health - ed as real);
        var rest := Bout(p.(health := ph), e.(health := eh), rolls, k + 2);
        Exchange(rest.playerHealth, rest.opponentHealth,
                 [hit, OpponentStrike(e.name, ed, ph)] + rest.strikes)
  }

  /** The whole fight: opening line, strike lines, and a closing line that
      names the outcome, which is a win exactly when the player has health. */
  function Resolve(p: Combatant, e: Combatant, rolls: nat -> real): (f: FightReport)
    requires ValidRolls(rolls)
    ensures f.outcome == Win <==> f.playerHealth > 0.0
    ensures |f.log| >= 2 && f.log[0] == Opening(p.name, e.name)
    ensures f.log[|f.log| - 1] == (if f.outcome == Win then Victory(p.name) else Defeat(p.name))
    ensures WellOrdered(f.log[1..|f.log| - 1], p.name, e.name)
    ensures p.health >= 0.0 ==> 0.0 <= f.playerHealth <= p.health
    ensures !(p.health > 0.0 && e.health > 0.0) ==> |f.log| == 2 && f.playerHealth == p.health
  {
    var x := Bout(p, e, rolls, 0);
    BoutStrikes(p, e, rolls, 0);
    BoutHealth(p, e, rolls, 0);
    var outcome := if x.playerHealth > 0.0 then Win else Loss;
    var closing := if outcome == Win then Victory(p.name) else Defeat(p.name);
    var log := [Opening(p.name, e.name)] + x.strikes + [closing];
    assert log[1..|log| - 1] == x.strikes;
    FightReport(outcome, x.playerHealth, log)
  }

  // ---------------------------------------------------------------------------
  // Properties of the strike loop
  // ---------------------------------------------------------------------------

  /** Strike line `i` of `s` is by the side whose turn it is (the player on
      even positions), names that side, deals at least 1 damage, leaves the
      target at a non-negative health, and leaves it standing unless it is
      the last line. */
  predicate StrikeAt(s: seq<Entry>, i: nat, player: string, opponent: string)
    requires i < |s|
  {
    && s[i].IsStrike()
    && (s[i].PlayerStrike? <==> i % 2 == 0)
    && s[i].attacker == (if s[i].PlayerStrike? then player else opponent)
    && s[i].damage >= 1
    && s[i].left >= 0.0
    && (i < |s| - 1 ==> s[i].left > 0.0)
  }

  /** Strike lines alternate, the player's first, and every strike but the
      last leaves its target standing: in particular the opponent never
      retaliates in the round its health reaches 0. */
  predicate WellOrdered(s: seq<Entry>, player: string, opponent: string) {
    forall i :: 0 <= i < |s| ==> StrikeAt(s, i, player, opponent)
  }

  /** Prefixing one full round to a well-ordered tail keeps it well-ordered. */
  lemma WellOrderedRound(a: Entry, b: Entry, rest: seq<Entry>, player: string, opponent: string)
    requires a.PlayerStrike? && a.attacker == player && a.damage >= 1 && a.left > 0.0
    requires b.OpponentStrike? && b.attacker == opponent && b.damage >= 1 && b.left >= 0.0
    requires |rest| > 0 ==> b.left > 0.0
    requires WellOrdered(rest, player, opponent)
    ensures WellOrdered([a, b] + rest, player, opponent)
  {
    var s := [a, b] + rest;
    forall i | 0 <= i < |s|
      ensures StrikeAt(s, i, player, opponent)
    {
      if i >= 2 {
        assert s[i] == rest[i - 2];
        assert StrikeAt(rest, i - 2, player, opponent);
      }
    }
  }

  /** Strike line `i` of a bout that started at roll `k` is computed the way
      the loop computes it: the attacker (the player on even positions) deals
      `Damage` of its strength and roll `k + i`, and the target is left at its
      health before the strike, less that damage, but not below 0. The health
      before is the target's starting health for its first hit and otherwise
      what the target's previous hit, two lines up, left it. */
  predicate StrikeFollows(s: seq<Entry>, i: nat, p: Combatant, e: Combatant, rolls: nat -> real, k: nat)
    requires i < |s| && ValidRolls(rolls)
  {
    && s[i].IsStrike()
    && (i >= 2 ==> s[i - 2].IsStrike())
    && s[i].damage == Damage(if i % 2 == 0 then p.strength else e.strength, rolls(k + i))
    && var before := if i >= 2 then s[i - 2].left else if i % 2 == 0 then e.health else p.health;
       s[i].left == MaxR(0.0, before - s[i].damage as real)
  }

  ghost predicate FollowsRolls(s: seq<Entry>, p: Combatant, e: Combatant, rolls: nat -> real, k: nat)
    requires ValidRolls(rolls)
  {
    forall i :: 0 <= i < |s| ==> StrikeFollows(s, i, p, e, rolls, k)
  }

  /** The health the strike lines `s` leave the player with: what the last
      retaliation (an odd position) left, or `start` if there was none. */
  function PlayerLeft(s: seq<Entry>, start: real): real {
    var j := if |s| % 2 == 0 then |s| - 1 else |s| - 2;
    if 0 <= j && s[j].IsStrike() then s[j].left else start
  }

  /** Likewise for the challenger: the last player strike (an even position). */
  function OpponentLeft(s: seq<Entry>, start: real): real {
    var j := if |s| % 2 == 1 then |s| - 1 else |s| - 2;
    if 0 <= j && s[j].IsStrike() then s[j].left else start
  }

  /** Prefixing one computed round to strike lines that follow the rolls from
      `k + 2` on, with the healths that round left, gives lines that follow
      the rolls from `k`. */
  lemma FollowsRound(p: Combatant, e: Combatant, rolls: nat -> real, k: nat,
                     pd: int, eh: real, ed: int, ph: real, rest: seq<Entry>)
    requires ValidRolls(rolls)
    requires pd == Damage(p.strength, rolls(k)) && eh == MaxR(0.0, e.health - pd as real)
    requires ed == Damage(e.strength, rolls(k + 1)) && ph == MaxR(0.0, p.health - ed as real)
    requires FollowsRolls(rest, p.(health := ph), e.(health := eh), rolls, k + 2)
    ensures FollowsRolls([PlayerStrike(p.name, pd, eh), OpponentStrike(e.name, ed, ph)] + rest, p, e, rolls, k)
  {
    var all := [PlayerStrike(p.name, pd, eh), OpponentStrike(e.name, ed, ph)] + rest;
    forall i | 0 <= i < |all|
      ensures StrikeFollows(all, i, p, e, rolls, k)
    {
      if i >= 2 {
        assert StrikeFollows(rest, i - 2, p.(health := ph), e.(health := eh), rolls, k + 2);
        FollowsShift(p, e, rolls, k, eh, ph, all, rest, i);
      }
    }
  }

  /** One line of the prefixed log: line `i >= 2` is line `i - 2` of the tail. */
  lemma FollowsShift(p: Combatant, e: Combatant, rolls: nat -> real, k: nat,
                     eh: real, ph: real, all: seq<Entry>, rest: seq<Entry>, i: nat)
    requires ValidRolls(rolls)
    requires |all| == |rest| + 2 && 2 <= i < |all| && all[2..] == rest
    requires all[0].IsStrike() && all[0].left == eh && all[1].IsStrike() && all[1].left == ph
    requires StrikeFollows(rest, i - 2, p.(health := ph), e.(health := eh), rolls, k + 2)
    ensures StrikeFollows(all, i, p, e, rolls, k)
  {
    assert all[i] == rest[i - 2];
    assert all[i - 2] == if i >= 4 then rest[i - 4] else all[i - 2];
    assert k + 2 + (i - 2) == k + i;
  }

  /** Prefixing a round moves the final healths back by two lines. */
  lemma LeftRound(a: Entry, b: Entry, rest: seq<Entry>, ps: real, es: real)
    requires a.IsStrike() && b.IsStrike()
    requires forall i :: 0 <= i < |rest| ==> rest[i].IsStrike()
    ensures PlayerLeft([a, b] + rest, ps) == PlayerLeft(rest, b.left)
    ensures OpponentLeft([a, b] + rest, es) == OpponentLeft(rest, a.left)
  {
    var all := [a, b] + rest;
    if |rest| >= 1 {
      assert all[|all| - 1] == rest[|rest| - 1];
    }
    if |rest| >= 2 {
      assert all[|all| - 2] == rest[|rest| - 2];
    }
  }

  /** The fight report's strike lines follow the strengths and the rolls, and
      the player's final health is what the last retaliation left. */
  lemma ResolveFollowsRolls(p: Combatant, e: Combatant, rolls: nat -> real)
    requires ValidRolls(rolls)
    ensures var f := Resolve(p, e, rolls);
      && |f.log| >= 2
      && FollowsRolls(f.log[1..|f.log| - 1], p, e, rolls, 0)
      && f.playerHealth == PlayerLeft(f.log[1..|f.log| - 1], p.health)
  {
    var f := Resolve(p, e, rolls);
    BoutFollowsRolls(p, e, rolls, 0);
    assert f.log[1..|f.log| - 1] == Bout(p, e, rolls, 0).strikes;
  }

  /** Every strike line follows from the strengths, the rolls and the health
      before it, and the final healths are what the last strikes left. */
  lemma {:induction false} BoutFollowsRolls(p: Combatant, e: Combatant, rolls: nat -> real, k: nat)
    requires ValidRolls(rolls)
    ensures var x := Bout(p, e, rolls, k);
      && FollowsRolls(x.strikes, p, e, rolls, k)
      && x.playerHealth == PlayerLeft(x.strikes, p.health)
      && x.opponentHealth == OpponentLeft(x.strikes, e.health)
    decreases e.health.Floor
  {
    var x := Bout(p, e, rolls, k);
    if !(p.health > 0.0 && e.health > 0.0) {
      assert x.strikes == [];
    } else {
      var pd := Damage(p.strength, rolls(k));
      var eh := MaxR(0.0, e.health - pd as real);
      if eh <= 0.0 {
        assert x == Exchange(p.health, eh, [PlayerStrike(p.name, pd, eh)]);
        assert StrikeFollows(x.strikes, 0, p, e, rolls, k);
      } else {
        var ed := Damage(e.strength, rolls(k + 1));
        var ph := MaxR(0.0, p.health - ed as real);
        var p', e' := p.(health := ph), e.(health := eh);
        BoutFollowsRolls(p', e', rolls, k + 2);
        var y := Bout(p', e', rolls, k + 2);
        var rest := y.strikes;
        assert x == Exchange(y.playerHealth, y.opponentHealth,
                             [PlayerStrike(p.name, pd, eh), OpponentStrike(e.name, ed, ph)] + rest);
        FollowsRound(p, e, rolls, k, pd, eh, ed, ph, rest);
        assert forall i :: 0 <= i < |rest| ==> rest[i].IsStrike() by {
          forall i | 0 <= i < |rest| ensures rest[i].IsStrike() {
            assert StrikeFollows(rest, i, p', e', rolls, k + 2);
          }
        }
        LeftRound(PlayerStrike(p.name, pd, eh), OpponentStrike(e.name, ed, ph), rest, p.health, e.health);
      }
    }
  }

  lemma {:induction false} BoutStrikes(p: Combatant, e: Combatant, rolls: nat -> real, k: nat)
    requires ValidRolls(rolls)
    ensures WellOrdered(Bout(p, e, rolls, k).strikes, p.name, e.name)
    decreases e.health.Floor
  {
    if p.health > 0.0 && e.health > 0.0 {
      var pd := Damage(p.strength, rolls(k));
      var eh := MaxR(0.0, e.health - pd as real);
      if eh > 0.0 {
        var ed := Damage(e.strength, rolls(k + 1));
        var ph := MaxR(0.0, p.health - ed as real);
        var p', e' := p.(health := ph), e.(health := eh);
        BoutStrikes(p', e', rolls, k + 2);
        var rest := Bout(p', e', rolls, k + 2).strikes;
        // the loop only continues while the player is still standing
        assert |rest| > 0 ==> ph > 0.0;
        WellOrderedRound(PlayerStrike(p.name, pd, eh), OpponentStrike(e.name, ed, ph), rest, p.name, e.name);
      }
    }
  }

  /** Healths never drop below 0 or rise, and when the opponent starts with
      health exactly one of the two ends at 0. */
  lemma {:induction false} BoutHealth(p: Combatant, e: Combatant, rolls: nat -> real, k: nat)
    requires ValidRolls(rolls)
    ensures var x := Bout(p, e, rolls, k);
      p.health >= 0.0 && e.health >= 0.0 ==>
        && 0.0 <= x.playerHealth <= p.health
        && 0.0 <= x.opponentHealth <= e.health
    ensures var x := Bout(p, e, rolls, k);
      p.health >= 0.0 && e.health > 0.0 ==>
        ((x.playerHealth == 0.0) <==> (x.opponentHealth > 0.0))
    ensures var x := Bout(p, e, rolls, k);
      p.health >= 0.0 && e.health > 0.0 && |x.strikes| > 0 ==>
        var last := x.strikes[|x.strikes| - 1];
        && (last.PlayerStrike? ==> last.left == x.opponentHealth == 0.0)
        && (last.OpponentStrike? ==> last.left == x.playerHealth == 0.0)
    decreases e.health.Floor
  {
    if p.health > 0.0 && e.health > 0.0 {
      var pd := Damage(p.strength, rolls(k));
      var eh := MaxR(0.0, e.health - pd as real);
      if eh > 0.0 {
        var ed := Damage(e.strength, rolls(k + 1));
        var ph := MaxR(0.0, p.health - ed as real);
        var p', e' := p.(health := ph), e.(health := eh);
        BoutHealth(p', e', rolls, k + 2);
        var rest := Bout(p', e', rolls, k + 2);
        if |rest.strikes| == 0 {
          assert ph == 0.0;
        }
      }
    }
  }

  /** Termination, made quantitative: every round costs the opponent at least
      one point of health, so there are at most twice as many strikes as the
      opponent's health rounded up. */
  lemma {:induction false} BoutLength(p: Combatant, e: Combatant, rolls: nat -> real, k: nat)
    requires ValidRolls(rolls)
    requires e.health >= 0.0
    ensures |Bout(p, e, rolls, k).strikes| <= 2 * Ceil(e.health)
    decreases e.health.Floor
  {
    if p.health > 0.0 && e.health > 0.0 {
      var pd := Damage(p.strength, rolls(k));
      var eh := MaxR(0.0, e.health - pd as real);
      if eh > 0.0 {
        var ed := Damage(e.strength, rolls(k + 1));
        var ph := MaxR(0.0, p.health - ed as real);
        BoutLength(p.(health := ph), e.(health := eh), rolls, k + 2);
        assert Ceil(eh) < Ceil(e.health);
      }
    }
  }

  /** The outcome is decided by a knockout: a win ends on the player's strike
      that leaves the opponent at 0, a loss of a player who entered with health
      ends on the opponent's strike that leaves the player at 0. */
  lemma Decisive(p: Combatant, e: Combatant, rolls: nat -> real)
    requires ValidRolls(rolls)
    requires p.health >= 0.0 && e.health > 0.0
    ensures var f := Resolve(p, e, rolls);
      f.outcome == Win ==> f.log[|f.log| - 2].PlayerStrike? && f.log[|f.log| - 2].left == 0.0
    ensures var f := Resolve(p, e, rolls);
      f.outcome == Loss && p.health > 0.0 ==>
        f.log[|f.log| - 2].OpponentStrike? && f.log[|f.log| - 2].left == 0.0
    ensures Resolve(p, e, rolls).outcome == Loss <==> Resolve(p, e, rolls).playerHealth == 0.0
  {
    var x := Bout(p, e, rolls, 0);
    BoutHealth(p, e, rolls, 0);
    BoutStrikes(p, e, rolls, 0);
    var f := Resolve(p, e, rolls);
    assert f.log[1..|f.log| - 1] == x.strikes;
    if f.outcome == Win || p.health > 0.0 {
      assert |x.strikes| > 0;
      assert StrikeAt(x.strikes, |x.strikes| - 1, p.name, e.name);
      assert f.log[|f.log| - 2] == x.strikes[|x.strikes| - 1];
    }
  }

  /** One round of the strike loop, unfolded: the player's strike, and, if
      the opponent still stands, the retaliation and the rest of the bout. */
  lemma BoutStep(p: Combatant, e: Combatant, rolls: nat -> real, k: nat)
    requires ValidRolls(rolls) && p.health > 0.0 && e.health > 0.0
    ensures var pd := Damage(p.strength, rolls(k));
      var eh := MaxR(0.0, e.health - pd as real);
      var x := Bout(p, e, rolls, k);
      if eh <= 0.0 then x == Exchange(p.health, eh, [PlayerStrike(p.name, pd, eh)])
      else
        var ed := Damage(e.strength, rolls(k + 1));
        var ph := MaxR(0.0, p.health - ed as real);
        var rest := Bout(p.(health := ph), e.(health := eh), rolls, k + 2);
        && x.strikes == [PlayerStrike(p.name, pd, eh), OpponentStrike(e.name, ed, ph)] + rest.strikes
        && x.playerHealth == rest.playerHealth
  {
  }

  /** The strike loop as the arena runs it: mutable healths, a strike counter
      and a growing log, leaving early when the opponent drops. It produces
      exactly the strikes and final player health of `Bout`. */
  method StrikeLoop(player: Combatant, enemy: Combatant, rolls: nat -> real)
    returns (playerHealth: real, log: seq<Entry>)
    requires ValidRolls(rolls)
    ensures log == [Opening(player.name, enemy.name)] + Bout(player, enemy, rolls, 0).strikes
    ensures playerHealth == Bout(player, enemy, rolls, 0).playerHealth
  {
    ghost var total := Bout(player, enemy, rolls, 0);
    var p, e := player, enemy;
    log := [Opening(p.name, e.name)];
    var k := 0;
    while p.health > 0.0 && e.health > 0.0
      invariant p.name == player.name && p.strength == player.strength
      invariant e.name == enemy.name && e.strength == enemy.strength
      invariant log + Bout(p, e, rolls, k).strikes == [Opening(player.name, enemy.name)] + total.strikes
      invariant Bout(p, e, rolls, k).playerHealth == total.playerHealth
      decreases e.health.Floor
    {
      ghost var before, log0 := Bout(p, e, rolls, k), log;
      BoutStep(p, e, rolls, k);
      var pDamage := Damage(p.strength, rolls(k));
      e := e.(health := MaxR(0.0, e.health - pDamage as real));
      var hit := PlayerStrike(p.name, pDamage, e.health);
      log := log + [hit];
      if e.health <= 0.0 {
        assert before.strikes == [hit] && before.playerHealth == p.health;
        k := k + 1;
        assert Bout(p, e, rolls, k) == Exchange(p.health, e.health, []);
        assert log + Bout(p, e, rolls, k).strikes == log0 + before.strikes;
        break;
      }
      var eDamage := Damage(e.strength, rolls(k + 1));
      p := p.(health := MaxR(0.0, p.health - eDamage as real));
      var back := OpponentStrike(e.name, eDamage, p.health);
      log := log + [back];
      k := k + 2;
      ghost var after := Bout(p, e, rolls, k);
      assert before.strikes == [hit, back] + after.strikes;
      assert log + after.strikes == log0 + before.strikes;
    }
    ghost var last := Bout(p, e, rolls, k);
    assert last.strikes == [] && last.playerHealth == p.health;
    playerHealth := p.health;
  }

  /** The whole fight as the arena runs it: the strike loop, then the
      closing line for the outcome it left. */
  method StartFight(player: Combatant, enemy: Combatant, rolls: nat -> real) returns (f: FightReport)
    requires ValidRolls(rolls)
    ensures f == Resolve(player, enemy, rolls)
  {
    var health, log := StrikeLoop(player, enemy, rolls);
    var outcome := if health > 0.0 then Win else Loss;
    log := log + [if outcome == Win then Victory(player.name) else Defeat(player.name)];
    f := FightReport(outcome, health, log);
  }
}

=== FILE: ludus.dfy ===
/** The data model of the gladiator school ("ludus"): gladiators, staff, the
    aggregate game state, the game's constants and the small helpers every
    other module shares.

    Randomness and wall-clock time never appear here: every `Math.random()`
    draw of the game is a `real` parameter in [0, 1) and every `Date.now()` is
    an `int` parameter counting milliseconds. */
module Ludus {

  datatype Option<+T> = None | Some(value: T)

  // ---------------------------------------------------------------------------
  // Constants of the game
  // ---------------------------------------------------------------------------

  const HealingCostPerHp: int := 5
  const TrainingCost: int := 100
  const PassiveHealAmount: int := 1
  const PassiveHealInterval: int := 5000
  const FightDuration: real := 60000.0
  const TrainingDuration: real := 10000.0
  const HealingMsPerHp: real := 200.0
  const RecruitCost: int := 250
  const FightReward: real := 200.0
  const DefaultPostFightStatChance: real := 60.0
  const StartingMoney: int := 1000

  // ---------------------------------------------------------------------------
  // Entities
  // ---------------------------------------------------------------------------

  datatype Status = Idle | Injured | Training | Healing | Fighting

  /** Training, healing or fighting: the statuses that carry a task. The tick
      looks for a task only under them, and the roster screen calls a
      gladiator in one of them busy. */
  predicate IsTaskStatus(s: Status) {
    s != Idle && s != Injured
  }

  /** The three trainable attributes, in the order the game draws them from. */
  datatype Stat = Strength | Agility | Stamina

  /** A running task: the wall-clock start and the total duration in ms. */
  datatype Task = Task(start: int, duration: real)

  datatype Gladiator = Gladiator(
    id: int,
    name: string,
    strength: int,
    agility: int,
    stamina: int,
    health: real,
    maxHealth: int,
    status: Status,
    task: Option<Task>,
    lastPassiveHeal: int)
  {
    function Get(s: Stat): int {
      match s
      case Strength => strength
      case Agility => agility
      case Stamina => stamina
    }

    /** The same gladiator with one attribute raised by `gain`. */
    function Raise(s: Stat, gain: int): (g: Gladiator)
      ensures g.Get(s) == Get(s) + gain
      ensures forall t :: t != s ==> g.Get(t) == Get(t)
      ensures g.(strength := strength, agility := agility, stamina := stamina) == this
    {
      match s
      case Strength => this.(strength := strength + gain)
      case Agility => this.(agility := agility + gain)
      case Stamina => this.(stamina := stamina + gain)
    }
  }

  datatype EffectKind = TrainingSpeed | HealingSpeed | BetterOpponents | FightWinnings
  datatype Effect = Effect(kind: EffectKind, value: real)

  /** A staff member. The static candidates carry no id; generated ones do. */
  datatype StaffMember = StaffMember(id: Option<int>, name: string, role: string, cost: int, effect: Effect)

  /** What `s.id || s.name` evaluates to: the id unless it is missing or 0. */
  datatype StaffKey = ById(id: int) | ByName(name: string)

  function KeyOf(s: StaffMember): StaffKey {
    if s.id.Some? && s.id.value != 0 then ById(s.id.value) else ByName(s.name)
  }

  datatype CheatMode = CheatMode(enabled: bool, doubleTrainingGain: bool, postFightStatChance: real)
  datatype Settings = Settings(useAI: bool, apiKey: string, cheatMode: CheatMode)
  datatype Counters = Counters(wins: nat, losses: nat, nameCounter: nat)

  datatype GameState = GameState(
    money: int,
    gladiators: seq<Gladiator>,
    staff: seq<StaffMember>,
    availableStaff: seq<StaffMember>,
    counters: Counters,
    settings: Settings)

  /** What the text-generation collaborator hands back to a handler: the call
      is refused (nothing) when text generation is off or there is no API
      key; otherwise `reply` is what the call produced, nothing when it
      failed. */
  function AiReply<T>(s: Settings, reply: Option<T>): (r: Option<T>)
    ensures !s.useAI || s.apiKey == "" ==> r.None?
    ensures s.useAI && s.apiKey != "" ==> r == reply
  {
    if !s.useAI || s.apiKey == "" then None else reply
  }

  const DefaultSettings: Settings :=
    Settings(false, "", CheatMode(false, false, DefaultPostFightStatChance))

  const StaticGladiatorNames: seq<string> :=
    ["Spartacus", "Crixus", "Gannicus", "Oenomaus", "Varro",
     "Agron", "Duro", "Nasir", "Rhaskos", "Barca"]

  const StaticStaffCandidates: seq<StaffMember> := [
    StaffMember(None, "Lucius", "Trainer", 500, Effect(TrainingSpeed, 0.1)),
    StaffMember(None, "Aelia", "Healer", 700, Effect(HealingSpeed, 0.15)),
    StaffMember(None, "Marcus", "Scout", 400, Effect(BetterOpponents, 0.05)),
    StaffMember(None, "Gaia", "Accountant", 1000, Effect(FightWinnings, 0.1)),
    StaffMember(None, "Sura", "Medic", 600, Effect(HealingSpeed, 0.12)),
    StaffMember(None, "Varinius", "Drillmaster", 800, Effect(TrainingSpeed, 0.15))
  ]

  // ---------------------------------------------------------------------------
  // Invariants
  // ---------------------------------------------------------------------------

  /** Health lies in [0, maxHealth] and maxHealth is derived from stamina. */
  predicate ValidGladiator(g: Gladiator) {
    && 0.0 <= g.health <= g.maxHealth as real
    && g.maxHealth == g.stamina * 10
  }

  predicate DistinctIds(gs: seq<Gladiator>) {
    forall i, j :: 0 <= i < j < |gs| ==> gs[i].id != gs[j].id
  }

  predicate ValidRoster(gs: seq<Gladiator>) {
    && (forall i :: 0 <= i < |gs| ==> ValidGladiator(gs[i]))
    && DistinctIds(gs)
  }

  /** Hired and listed staff never carry a negative bonus. */
  predicate ValidStaff(ss: seq<StaffMember>) {
    forall i :: 0 <= i < |ss| ==> ss[i].effect.value >= 0.0
  }

  predicate ValidState(s: GameState) {
    && s.money >= 0
    && |s.gladiators| >= 1
    && ValidRoster(s.gladiators)
    && ValidStaff(s.staff)
    && ValidStaff(s.availableStaff)
  }

  // ---------------------------------------------------------------------------
  // Arithmetic helpers standing for the `Math` functions the game uses
  // ---------------------------------------------------------------------------

  function Max(a: int, b: int): int { if a < b then b else a }
  function MaxR(a: real, b: real): real { if a < b then b else a }
  function MinR(a: real, b: real): real { if a < b then a else b }

  /** A value `Math.random()` can return. */
  predicate IsDraw(r: real) { 0.0 <= r < 1.0 }

  /** `Math.ceil`: the least integer not below `x`. */
  function Ceil(x: real): (c: int)
    ensures x <= c as real < x + 1.0
  {
    -((-x).Floor)
  }

  /** `Math.floor(Math.random() * n)`: a uniform index below `n`. */
  function DrawIndex(r: real, n: nat): (i: nat)
    requires IsDraw(r)
    requires n > 0
    ensures i < n
    ensures i as real <= r * n as real < i as real + 1.0
  {
    assert 0.0 <= r * n as real < n as real by {
      assert r * n as real <= 1.0 * n as real;
    }
    (r * n as real).Floor
  }

  /** Which attribute a training or post-fight draw selects. */
  function PickStat(r: real): (s: Stat)
    requires IsDraw(r)
    ensures s == Strength <==> r < 1.0 / 3.0
    ensures s == Stamina <==> r >= 2.0 / 3.0
  {
    var i := DrawIndex(r, 3);
    if i == 0 then Strength else if i == 1 then Agility else Stamina
  }

  // ---------------------------------------------------------------------------
  // Sequence helpers for `Array.prototype.find` and `filter`
  // ---------------------------------------------------------------------------

  /** The position of the first element satisfying `p`, as `find` locates it. */
  function IndexWhere<T>(s: seq<T>, p: T -> bool): (r: Option<nat>)
    ensures r.Some? ==> r.value < |s| && p(s[r.value])
    ensures r.Some? ==> forall j :: 0 <= j < r.value ==> !p(s[j])
    ensures r.None? <==> forall j :: 0 <= j < |s| ==> !p(s[j])
  {
    if |s| == 0 then None
    else if p(s[0]) then Some(0)
    else match IndexWhere(s[1..], p)
      case None => None
      case Some(k) => Some(k + 1)
  }

  /** The elements that satisfy `keep`, in their original order. */
  function Filter<T>(s: seq<T>, keep: T -> bool): (r: seq<T>)
    ensures |r| <= |s|
    ensures forall j :: 0 <= j < |r| ==> r[j] in s && keep(r[j])
    ensures forall j :: 0 <= j < |s| && keep(s[j]) ==> s[j] in r
    ensures |r| == |s| <==> forall j :: 0 <= j < |s| ==> keep(s[j])
  {
    if |s| == 0 then []
    else if keep(s[0]) then [s[0]] + Filter(s[1..], keep)
    else Filter(s[1..], keep)
  }

  /** Filtering distributes over concatenation: the kept elements of `a`
      come first and in their order, then those of `b`. */
  lemma {:induction false} FilterConcat<T>(a: seq<T>, b: seq<T>, keep: T -> bool)
    ensures Filter(a + b, keep) == Filter(a, keep) + Filter(b, keep)
  {
    if |a| > 0 {
      assert (a + b)[0] == a[0];
      assert (a + b)[1..] == a[1..] + b;
      FilterConcat(a[1..], b, keep);
    } else {
      assert a + b == b;
    }
  }

  /** Keeping every element gives back the sequence itself, order included. */
  lemma {:induction false} FilterAllKept<T>(s: seq<T>, keep: T -> bool)
    requires forall j :: 0 <= j < |s| ==> keep(s[j])
    ensures Filter(s, keep) == s
  {
    if |s| > 0 {
      FilterAllKept(s[1..], keep);
    }
  }

  /** When exactly the element at `k` fails the test, filtering cuts out that
      one position and keeps the rest in order. */
  lemma {:induction false} FilterDropsOne<T>(s: seq<T>, keep: T -> bool, k: nat)
    requires k < |s| && !keep(s[k])
    requires forall j :: 0 <= j < |s| && j != k ==> keep(s[j])
    ensures Filter(s, keep) == s[..k] + s[k + 1..]
  {
    var tail := s[1..];
    if k == 0 {
      assert forall j :: 0 <= j < |tail| ==> keep(tail[j]) by {
        forall j | 0 <= j < |tail| ensures keep(tail[j]) {
          assert tail[j] == s[j + 1];
        }
      }
      FilterAllKept(tail, keep);
    } else {
      assert forall j :: 0 <= j < |tail| && j != k - 1 ==> keep(tail[j]) by {
        forall j | 0 <= j < |tail| && j != k - 1 ensures keep(tail[j]) {
          assert tail[j] == s[j + 1];
        }
      }
      FilterDropsOne(tail, keep, k - 1);
      assert s[..k] == [s[0]] + tail[..k - 1];
      assert s[k + 1..] == tail[k..];
    }
  }
}

=== FILE: names.dfy ===
/** Deterministic naming used when the text-generation collaborator is off:
    recruit number `n` is called after the `n % 10`-th static name, followed by
    a space and, from the second pass through the list on, the pass number. */
module Names {
  import opened Ludus

  predicate IsDigit(c: char) { '0' <= c <= '9' }

  predicate AllDigits(s: string) { forall i :: 0 <= i < |s| ==> IsDigit(s[i]) }

  /** The decimal rendering JavaScript gives a non-negative integer. */
  function DecimalString(n: nat): (s: string)
    ensures |s| >= 1 && AllDigits(s)
    decreases n
  {
    var d := ['0' + ((n % 10) as char)];
    if n < 10 then d else DecimalString(n / 10) + d
  }

  /** The value of a string of decimal digits. */
  function DecimalValue(s: string): nat
    requires AllDigits(s)
  {
    if |s| == 0 then 0
    else 10 * DecimalValue(s[..|s| - 1]) + (s[|s| - 1] - '0') as nat
  }

  lemma {:induction false} DecimalRoundTrip(n: nat)
    ensures DecimalValue(DecimalString(n)) == n
    decreases n
  {
    var s := DecimalString(n);
    assert s[..|s| - 1] == (if n < 10 then [] else DecimalString(n / 10));
    if n >= 10 {
      DecimalRoundTrip(n / 10);
    }
  }

  lemma DecimalStringInjective(n: nat, m: nat)
    requires DecimalString(n) == DecimalString(m)
    ensures n == m
  {
    DecimalRoundTrip(n);
    DecimalRoundTrip(m);
  }

  /** The text after the static name: empty on the first pass, otherwise the
      pass number counted from 1 (so the second pass reads "2"). */
  function PassSuffix(pass: nat): (s: string)
    ensures pass == 0 <==> s == ""
    ensures AllDigits(s)
  {
    if pass > 0 then DecimalString(pass + 1) else ""
  }

  /** The static name given to recruit number `n`. On the first pass the
      suffix is empty, so the name keeps a trailing space ("Spartacus "). */
  function StaticName(n: nat): string {
    StaticGladiatorNames[n % |StaticGladiatorNames|] + " "
      + PassSuffix(n / |StaticGladiatorNames|)
  }

  predicate NoSpace(s: string) { forall i :: 0 <= i < |s| ==> s[i] != ' ' }

  lemma StaticNamesWellFormed()
    ensures |StaticGladiatorNames| == 10
    ensures forall i :: 0 <= i < 10 ==> NoSpace(StaticGladiatorNames[i])
    ensures forall i, j :: 0 <= i < j < 10 ==> StaticGladiatorNames[i] != StaticGladiatorNames[j]
  {
    var ns := StaticGladiatorNames;
    forall i, j | 0 <= i < j < 10
      ensures ns[i] != ns[j]
    {
      assert ns[i][0] != ns[j][0] || ns[i][1] != ns[j][1] || |ns[i]| != |ns[j]|;
    }
  }

  /** Position `|a|` holds the separating space on one side and a letter of
      the longer word on the other. */
  lemma CharAfterWord(a: string, b: string, c: string, d: string)
    ensures (a + " " + b)[|a|] == ' '
    ensures |a| < |c| ==> (c + " " + d)[|a|] == c[|a|]
  {
  }

  /** A space-free word followed by a space is recovered from the whole string. */
  lemma {:induction false} SplitAtFirstSpace(a: string, b: string, c: string, d: string)
    requires NoSpace(a) && NoSpace(c)
    requires a + " " + b == c + " " + d
    ensures a == c && b == d
  {
    var x := a + " " + b;
    if |a| < |c| {
      CharAfterWord(a, b, c, d);
      assert false;
    } else if |c| < |a| {
      CharAfterWord(c, d, a, b);
      assert false;
    } else {
      assert a == x[..|a|] == c;
      assert b == x[|a| + 1..] == d;
    }
  }

  /** Different recruit numbers always receive different static names. */
  lemma StaticNameInjective(n: nat, m: nat)
    requires StaticName(n) == StaticName(m)
    ensures n == m
  {
    StaticNamesWellFormed();
    var ns := StaticGladiatorNames;
    SplitAtFirstSpace(ns[n % 10], PassSuffix(n / 10), ns[m % 10], PassSuffix(m / 10));
    assert n % 10 == m % 10;
    var p, q := n / 10, m / 10;
    if p > 0 && q > 0 {
      DecimalStringInjective(p + 1, q + 1);
    }
  }

  /** On the first pass through the list the name ends in a bare space; from
      the second pass on it ends in a digit. */
  lemma StaticNameShape(n: nat)
    ensures n < 10 ==> StaticName(n) == StaticGladiatorNames[n] + " "
    ensures n >= 10 ==> IsDigit(StaticName(n)[|StaticName(n)| - 1])
    ensures n >= 10 ==> StaticName(n) == StaticGladiatorNames[n % 10] + " " + DecimalString(n / 10 + 1)
  {
  }
}

=== FILE: roster.dfy ===
/** Roster actions: recruiting, training, healing, dismissing, renaming and
    (in cheat mode) editing gladiators. Each action is a pure transformer of
    the game state. The handlers are modelled as written: the "not busy" and
    "not at full health" guards live in the roster screen, and appear here as
    the predicates `IsTaskStatus` (busy) and `HealEnabled`. */
module Roster {
  import opened Ludus
  import opened Names

  // ---------------------------------------------------------------------------
  // Creating gladiators and a fresh game
  // ---------------------------------------------------------------------------

  /** The three attribute draws of a new gladiator, in call order. */
  datatype RecruitDraws = RecruitDraws(stamina: real, strength: real, agility: real)

  predicate ValidRecruitDraws(d: RecruitDraws) {
    IsDraw(d.stamina) && IsDraw(d.strength) && IsDraw(d.agility)
  }

  /** `5 + Math.floor(Math.random() * 6)`. */
  function AttributeRoll(r: real): (a: int)
    requires IsDraw(r)
    ensures 5 <= a <= 10
  {
    5 + DrawIndex(r, 6)
  }

  function CreateGladiator(id: int, name: string, d: RecruitDraws): (g: Gladiator)
    requires ValidRecruitDraws(d)
    ensures g.id == id && g.name == name
    ensures 5 <= g.strength <= 10 && 5 <= g.agility <= 10 && 5 <= g.stamina <= 10
    ensures g.health == g.maxHealth as real && g.maxHealth == g.stamina * 10
    ensures g.status == Idle && g.task.None? && g.lastPassiveHeal == 0
    ensures ValidGladiator(g)
  {
    var stam := AttributeRoll(d.stamina);
    Gladiator(id, name, AttributeRoll(d.strength), AttributeRoll(d.agility), stam,
              (stam * 10) as real, stam * 10, Idle, None, 0)
  }

  /** A fresh game: 1000 in money, one gladiator called "Player One", no staff
      hired, the first three static candidates listed, zeroed counters. */
  function InitialGameState(id: int, d: RecruitDraws): (s: GameState)
    requires ValidRecruitDraws(d)
    ensures ValidState(s)
    ensures s.money == StartingMoney
    ensures |s.gladiators| == 1 && s.gladiators[0].name == "Player One"
    ensures s.gladiators[0].status == Idle
    ensures s.gladiators[0].health == s.gladiators[0].maxHealth as real
    ensures 50 <= s.gladiators[0].maxHealth <= 100
    ensures s.staff == [] && |s.availableStaff| == 3
    ensures s.availableStaff == StaticStaffCandidates[..3]
    ensures s.counters == Counters(0, 0, 0) && s.settings == DefaultSettings
  {
    GameState(StartingMoney, [CreateGladiator(id, "Player One", d)], [],
              StaticStaffCandidates[..3], Counters(0, 0, 0), DefaultSettings)
  }

  /** Buying a new recruit for 250. With text generation off, the recruit
      takes the static name for the current counter, which advances. With it
      on, the recruit takes the name `reply` carries (`AiReply` gates it on
      the API key); an absent or empty name abandons the purchase, and the
      counter never moves. */
  function Recruit(s: GameState, id: int, d: RecruitDraws, reply: Option<string>): (r: GameState)
    requires ValidRecruitDraws(d)
    ensures s.money < RecruitCost ==> r == s
    ensures s.money >= RecruitCost && !s.settings.useAI ==>
      && r.money == s.money - RecruitCost
      && r.counters == s.counters.(nameCounter := s.counters.nameCounter + 1)
      && |r.gladiators| == |s.gladiators| + 1
      && r.gladiators[..|s.gladiators|] == s.gladiators
      && r.gladiators[|s.gladiators|].name == StaticName(s.counters.nameCounter)
      && r.gladiators[|s.gladiators|].id == id
      && r.gladiators[|s.gladiators|] == CreateGladiator(id, StaticName(s.counters.nameCounter), d)
      && r.staff == s.staff && r.availableStaff == s.availableStaff && r.settings == s.settings
    // text generation on: a missing or empty name changes nothing
    ensures s.settings.useAI && (AiReply(s.settings, reply).None? || AiReply(s.settings, reply).value == "") ==>
      r == s
    // text generation on: a usable name recruits under it and leaves the counter alone
    ensures (s.money >= RecruitCost && s.settings.useAI &&
             AiReply(s.settings, reply).Some? && AiReply(s.settings, reply).value != "") ==>
      && r.money == s.money - RecruitCost
      && r.counters == s.counters
      && r.gladiators == s.gladiators + [CreateGladiator(id, reply.value, d)]
      && r == s.(money := r.money, gladiators := r.gladiators)
  {
    if s.money < RecruitCost then s
    else if s.settings.useAI then
      match AiReply(s.settings, reply)
      case None => s
      case Some(name) =>
        if name == "" then s
        else s.(gladiators := s.gladiators + [CreateGladiator(id, name, d)], money := s.money - RecruitCost)
    else
      var name := StaticName(s.counters.nameCounter);
      s.(counters := s.counters.(nameCounter := s.counters.nameCounter + 1),
         gladiators := s.gladiators + [CreateGladiator(id, name, d)],
         money := s.money - RecruitCost)
  }

  /** Two static recruits made at different counter values are named
      differently. */
  lemma RecruitNamesDiffer(s: GameState, id: int, d: RecruitDraws, s': GameState, id': int, d': RecruitDraws,
                           reply: Option<string>, reply': Option<string>)
    requires ValidRecruitDraws(d) && ValidRecruitDraws(d')
    requires s.money >= RecruitCost && s'.money >= RecruitCost
    requires !s.settings.useAI && !s'.settings.useAI
    requires s.counters.nameCounter != s'.counters.nameCounter
    ensures Recruit(s, id, d, reply).gladiators[|s.gladiators|].name
         != Recruit(s', id', d', reply').gladiators[|s'.gladiators|].name
  {
    var n, m := s.counters.nameCounter, s'.counters.nameCounter;
    if StaticName(n) == StaticName(m) {
      StaticNameInjective(n, m);
    }
  }

  // ---------------------------------------------------------------------------
  // Updating the gladiator with a given id
  // ---------------------------------------------------------------------------

  /** `gladiators.map(g => g.id === id ? f(g) : g)`. */
  function UpdateWhere(gs: seq<Gladiator>, id: int, f: Gladiator -> Gladiator): (rs: seq<Gladiator>)
    ensures |rs| == |gs|
    ensures forall i :: 0 <= i < |gs| ==> rs[i] == if gs[i].id == id then f(gs[i]) else gs[i]
  {
    seq(|gs|, i requires 0 <= i < |gs| => if gs[i].id == id then f(gs[i]) else gs[i])
  }

  /** Updating with a function that keeps ids and validity keeps the roster valid. */
  lemma UpdateWherePreservesValid(gs: seq<Gladiator>, id: int, f: Gladiator -> Gladiator)
    requires ValidRoster(gs)
    requires forall i :: 0 <= i < |gs| && gs[i].id == id ==>
      f(gs[i]).id == id && ValidGladiator(f(gs[i]))
    ensures ValidRoster(UpdateWhere(gs, id, f))
  {
  }

  function FindGladiator(gs: seq<Gladiator>, id: int): Option<nat> {
    IndexWhere(gs, (g: Gladiator) => g.id == id)
  }

  // ---------------------------------------------------------------------------
  // Training
  // ---------------------------------------------------------------------------

  function StartTraining(g: Gladiator, now: int): Gladiator {
    g.(status := Training, task := Some(Task(now, TrainingDuration)))
  }

  /** Training costs a flat 100, charged up front, and runs for ten seconds.
      The handler charges even when no gladiator has the id. */
  function Train(s: GameState, id: int, now: int): (r: GameState)
    ensures s.money < TrainingCost ==> r == s
    ensures s.money >= TrainingCost ==>
      && r.money == s.money - TrainingCost
      && r == s.(money := r.money, gladiators := r.gladiators)
      && |r.gladiators| == |s.gladiators|
      && forall i :: 0 <= i < |s.gladiators| ==>
           var g := s.gladiators[i];
           if g.id == id then
             && r.gladiators[i].status == Training
             && r.gladiators[i].task == Some(Task(now, 10000.0))
             && r.gladiators[i] == g.(status := Training, task := r.gladiators[i].task)
           else r.gladiators[i] == g
  {
    if s.money < TrainingCost then s
    else s.(money := s.money - TrainingCost,
            gladiators := UpdateWhere(s.gladiators, id, (g: Gladiator) => StartTraining(g, now)))
  }

  // ---------------------------------------------------------------------------
  // Healing
  // ---------------------------------------------------------------------------

  /** `Math.ceil(maxHealth - health) * 5`. */
  function HealingCost(g: Gladiator): (cost: int)
    ensures ValidGladiator(g) ==> 0 <= cost <= 5 * g.maxHealth
    ensures ValidGladiator(g) ==> (cost == 0 <==> g.health == g.maxHealth as real)
    ensures (cost as real) >= 5.0 * (g.maxHealth as real - g.health)
  {
    Ceil(g.maxHealth as real - g.health) * HealingCostPerHp
  }

  /** Healing takes 200 ms per missing point of health. */
  function StartHealing(g: Gladiator, now: int): Gladiator {
    g.(status := Healing, task := Some(Task(now, (g.maxHealth as real - g.health) * HealingMsPerHp)))
  }

  /** The roster screen offers healing only to a resting, hurt gladiator the
      school can pay for. */
  predicate HealEnabled(s: GameState, g: Gladiator) {
    !IsTaskStatus(g.status) && g.health < g.maxHealth as real && s.money >= HealingCost(g)
  }

  /** The cost is read off the first gladiator with the id; nothing happens
      when there is none or the school cannot pay. */
  function Heal(s: GameState, id: int, now: int): (r: GameState)
    ensures FindGladiator(s.gladiators, id).None? ==> r == s
    ensures FindGladiator(s.gladiators, id).Some? ==>
      var g := s.gladiators[FindGladiator(s.gladiators, id).value];
      && g.id == id
      && (s.money < HealingCost(g) ==> r == s)
      && (s.money >= HealingCost(g) ==>
           && r.money == s.money - HealingCost(g)
           && r == s.(money := r.money, gladiators := r.gladiators)
           && |r.gladiators| == |s.gladiators|
           && forall i :: 0 <= i < |s.gladiators| ==>
                var h := s.gladiators[i];
                if h.id == id then
                  && r.gladiators[i].status == Healing
                  && r.gladiators[i].task.Some?
                  && r.gladiators[i].task.value.start == now
                  && r.gladiators[i].task.value.duration == (h.maxHealth as real - h.health) * 200.0
                  && r.gladiators[i] == h.(status := Healing, task := r.gladiators[i].task)
                else r.gladiators[i] == h)
  {
    match FindGladiator(s.gladiators, id)
    case None => s
    case Some(k) =>
      var cost := HealingCost(s.gladiators[k]);
      if s.money < cost then s
      else s.(money := s.money - cost,
              gladiators := UpdateWhere(s.gladiators, id, (g: Gladiator) => StartHealing(g, now)))
  }

  /** With the roster screen's guard, a heal always has a positive duration. */
  lemma GuardedHealHasDuration(s: GameState, k: nat, now: int)
    requires ValidState(s) && k < |s.gladiators|
    requires HealEnabled(s, s.gladiators[k])
    ensures var r := Heal(s, s.gladiators[k].id, now);
      r.gladiators[k].status == Healing && r.gladiators[k].task.value.duration > 0.0
  {
    var id := s.gladiators[k].id;
    var j := FindGladiator(s.gladiators, id).value;
    assert j == k;
  }

  /** Called directly at full health, the handler charges nothing and starts a
      heal of zero duration. */
  lemma UnguardedHealAtFullHealth(s: GameState, k: nat, now: int)
    requires ValidState(s) && k < |s.gladiators|
    requires s.gladiators[k].health == s.gladiators[k].maxHealth as real
    ensures var r := Heal(s, s.gladiators[k].id, now);
      && r.money == s.money
      && r.gladiators[k].status == Healing
      && r.gladiators[k].task == Some(Task(now, 0.0))
  {
    var id := s.gladiators[k].id;
    var j := FindGladiator(s.gladiators, id).value;
    assert j == k;
  }

  // ---------------------------------------------------------------------------
  // Dismissing, renaming, editing
  // ---------------------------------------------------------------------------

  /** Dismissal happens only when the gladiator exists and is not the last. */
  function Fire(s: GameState, id: int): (r: GameState)
    ensures |s.gladiators| <= 1 || FindGladiator(s.gladiators, id).None? ==> r == s
    ensures |s.gladiators| > 1 && FindGladiator(s.gladiators, id).Some? ==>
      && r == s.(gladiators := r.gladiators)
      && (forall i :: 0 <= i < |r.gladiators| ==> r.gladiators[i].id != id && r.gladiators[i] in s.gladiators)
      && (forall i :: 0 <= i < |s.gladiators| && s.gladiators[i].id != id ==> s.gladiators[i] in r.gladiators)
      && |r.gladiators| < |s.gladiators|
    // with distinct ids, exactly the dismissed position is cut out, the rest keeping their order
    ensures |s.gladiators| > 1 && FindGladiator(s.gladiators, id).Some? && DistinctIds(s.gladiators) ==>
      var k := FindGladiator(s.gladiators, id).value;
      r.gladiators == s.gladiators[..k] + s.gladiators[k + 1..]
  {
    if |s.gladiators| > 1 && FindGladiator(s.gladiators, id).Some? then
      assert DistinctIds(s.gladiators) ==>
        var k := FindGladiator(s.gladiators, id).value;
        WithoutId(s.gladiators, id) == s.gladiators[..k] + s.gladiators[k + 1..]
      by {
        if DistinctIds(s.gladiators) {
          WithoutIdSplice(s.gladiators, id);
        }
      }
      s.(gladiators := WithoutId(s.gladiators, id))
    else s
  }

  /** The test dismissal filters by: a different id. */
  function OtherId(id: int): Gladiator -> bool {
    (g: Gladiator) => g.id != id
  }

  /** `gladiators.filter(g => g.id !== id)`. */
  function WithoutId(gs: seq<Gladiator>, id: int): seq<Gladiator> {
    Filter(gs, OtherId(id))
  }

  /** With distinct ids, removing a present id cuts out its one position and
      keeps every other gladiator in its order. */
  lemma WithoutIdSplice(gs: seq<Gladiator>, id: int)
    requires DistinctIds(gs) && FindGladiator(gs, id).Some?
    ensures var k := FindGladiator(gs, id).value;
      WithoutId(gs, id) == gs[..k] + gs[k + 1..]
  {
    var k := FindGladiator(gs, id).value;
    forall j | 0 <= j < |gs| && j != k
      ensures OtherId(id)(gs[j])
    {
      assert gs[j].id != gs[k].id;
    }
    FilterDropsOne(gs, OtherId(id), k);
  }

  lemma {:induction false} WithoutIdDistinct(gs: seq<Gladiator>, id: int)
    requires DistinctIds(gs)
    ensures DistinctIds(WithoutId(gs, id))
  {
    if |gs| > 0 {
      var tail := gs[1..];
      WithoutIdDistinct(tail, id);
      var rt := WithoutId(tail, id);
      forall j | 0 <= j < |rt|
        ensures rt[j].id != gs[0].id
      {
        assert rt[j] in tail;
      }
      assert WithoutId(gs, id) == if gs[0].id != id then [gs[0]] + rt else rt;
    }
  }

  lemma {:induction false} WithoutIdRemovesOne(gs: seq<Gladiator>, id: int)
    requires DistinctIds(gs)
    requires FindGladiator(gs, id).Some?
    ensures |WithoutId(gs, id)| == |gs| - 1
  {
    var tail := gs[1..];
    assert WithoutId(gs, id) == if gs[0].id != id then [gs[0]] + WithoutId(tail, id) else WithoutId(tail, id);
    if gs[0].id == id {
      assert forall j :: 0 <= j < |tail| ==> tail[j].id != id;
    } else {
      assert FindGladiator(tail, id).Some?;
      WithoutIdRemovesOne(tail, id);
    }
  }

  /** With distinct ids, dismissal removes exactly one gladiator and never
      empties the roster. */
  lemma FireRemovesOne(s: GameState, id: int)
    requires ValidState(s)
    requires FindGladiator(s.gladiators, id).Some? && |s.gladiators| > 1
    ensures |Fire(s, id).gladiators| == |s.gladiators| - 1 >= 1
  {
    WithoutIdRemovesOne(s.gladiators, id);
  }

  function Rename(s: GameState, id: int, newName: string): (r: GameState)
    ensures r == s.(gladiators := r.gladiators) && |r.gladiators| == |s.gladiators|
    ensures forall i :: 0 <= i < |s.gladiators| ==>
      r.gladiators[i] == if s.gladiators[i].id == id then s.gladiators[i].(name := newName) else s.gladiators[i]
  {
    s.(gladiators := UpdateWhere(s.gladiators, id, (g: Gladiator) => g.(name := newName)))
  }

  /** The three attributes the cheat editor writes. */
  datatype Stats = Stats(strength: int, agility: int, stamina: int)

  /** Overwrite the attributes and rescale health so that the fraction of
      health left stays the same. */
  function Rescale(g: Gladiator, st: Stats): (r: Gladiator)
    requires g.maxHealth != 0
    ensures r.maxHealth == st.stamina * 10
    ensures r.health * g.maxHealth as real == g.health * r.maxHealth as real
    ensures r.maxHealth != 0 ==> r.health / r.maxHealth as real == g.health / g.maxHealth as real
    ensures r == g.(strength := st.strength, agility := st.agility, stamina := st.stamina,
                    maxHealth := r.maxHealth, health := r.health)
  {
    var m := st.stamina * 10;
    var ratio := g.health / g.maxHealth as real;
    var h := m as real * ratio;
    assert h * g.maxHealth as real == g.health * m as real by {
      assert ratio * g.maxHealth as real == g.health;
    }
    g.(strength := st.strength, agility := st.agility, stamina := st.stamina, maxHealth := m, health := h)
  }

  /** A valid gladiator stays valid under an edit to a non-negative stamina. */
  lemma RescalePreservesValid(g: Gladiator, st: Stats)
    requires ValidGladiator(g) && g.maxHealth > 0
    requires st.stamina >= 0
    ensures ValidGladiator(Rescale(g, st))
  {
    var r := Rescale(g, st);
    var ratio := g.health / g.maxHealth as real;
    assert 0.0 <= ratio <= 1.0 by {
      assert ratio * g.maxHealth as real == g.health;
    }
    var m := r.maxHealth as real;
    assert r.health == m * ratio;
    assert m - m * ratio == m * (1.0 - ratio);
    NonNegativeProduct(m, 1.0 - ratio);
    NonNegativeProduct(m, ratio);
  }

  lemma NonNegativeProduct(a: real, b: real)
    requires a >= 0.0 && b >= 0.0
    ensures a * b >= 0.0
  {
  }

  /** Every gladiator the edit reaches must have a non-zero maximum health:
      the source divides by it. */
  predicate EditableTarget(s: GameState, id: int) {
    forall i :: 0 <= i < |s.gladiators| && s.gladiators[i].id == id ==> s.gladiators[i].maxHealth != 0
  }

  function EditStats(s: GameState, id: int, st: Stats): (r: GameState)
    requires EditableTarget(s, id)
    ensures r == s.(gladiators := r.gladiators) && |r.gladiators| == |s.gladiators|
    ensures forall i :: 0 <= i < |s.gladiators| ==>
      r.gladiators[i] == if s.gladiators[i].id == id then Rescale(s.gladiators[i], st) else s.gladiators[i]
  {
    s.(gladiators := UpdateWhere(s.gladiators, id,
        (g: Gladiator) => if g.id == id && g.maxHealth != 0 then Rescale(g, st) else g))
  }

  /** `setGladiatorStatus`: put a gladiator on a task of the given duration. */
  function SetStatus(s: GameState, id: int, status: Status, duration: real, now: int): (r: GameState)
    ensures r == s.(gladiators := r.gladiators) && |r.gladiators| == |s.gladiators|
    ensures forall i :: 0 <= i < |s.gladiators| ==>
      r.gladiators[i] == if s.gladiators[i].id == id
        then s.gladiators[i].(status := status, task := Some(Task(now, duration)))
        else s.gladiators[i]
  {
    s.(gladiators := UpdateWhere(s.gladiators, id,
        (g: Gladiator) => g.(status := status, task := Some(Task(now, duration)))))
  }

  // ---------------------------------------------------------------------------
  // The game invariant is kept by every roster action
  // ---------------------------------------------------------------------------

  lemma RecruitPreservesValid(s: GameState, id: int, d: RecruitDraws, reply: Option<string>)
    requires ValidState(s) && ValidRecruitDraws(d)
    requires FindGladiator(s.gladiators, id).None?
    ensures ValidState(Recruit(s, id, d, reply))
  {
  }

  lemma TrainPreservesValid(s: GameState, id: int, now: int)
    requires ValidState(s)
    ensures ValidState(Train(s, id, now))
  {
  }

  lemma HealPreservesValid(s: GameState, id: int, now: int)
    requires ValidState(s)
    ensures ValidState(Heal(s, id, now))
  {
  }

  lemma FirePreservesValid(s: GameState, id: int)
    requires ValidState(s)
    ensures ValidState(Fire(s, id))
  {
    WithoutIdDistinct(s.gladiators, id);
    if |s.gladiators| > 1 && FindGladiator(s.gladiators, id).Some? {
      WithoutIdRemovesOne(s.gladiators, id);
    }
    var r := Fire(s, id);
    forall i | 0 <= i < |r.gladiators|
      ensures ValidGladiator(r.gladiators[i])
    {
      assert r.gladiators[i] in s.gladiators;
    }
  }

  lemma RenamePreservesValid(s: GameState, id: int, newName: string)
    requires ValidState(s)
    ensures ValidState(Rename(s, id, newName))
  {
  }

  lemma EditStatsPreservesValid(s: GameState, id: int, st: Stats)
    requires ValidState(s)
    requires forall i :: 0 <= i < |s.gladiators| && s.gladiators[i].id == id ==> s.gladiators[i].maxHealth > 0
    requires st.stamina >= 0
    ensures ValidState(EditStats(s, id, st))
  {
    var r := EditStats(s, id, st);
    forall i | 0 <= i < |r.gladiators|
      ensures ValidGladiator(r.gladiators[i])
    {
      if s.gladiators[i].id == id {
        RescalePreservesValid(s.gladiators[i], st);
      }
    }
  }

  lemma SetStatusPreservesValid(s: GameState, id: int, status: Status, duration: real, now: int)
    requires ValidState(s)
    ensures ValidState(SetStatus(s, id, status, duration, now))
  {
  }
}

=== FILE: scenarios.dfy ===
/** Worked scenarios across modules: a training cycle and a healing cycle
    from the action to the tick that finishes it. */
module Scenarios {
  import opened Ludus
  import opened Roster
  import opened Tick

  /** Training from 1000 in money costs 100; the tick at ten seconds finishes
      it, leaving the gladiator resting, fully healed, with exactly the drawn
      attribute one point higher. */
  lemma TrainingCycle(s: GameState, k: nat, now: int, pick: nat -> Stat)
    requires ValidState(s) && k < |s.gladiators| && s.money == 1000
    requires now != 0 && !s.settings.cheatMode.enabled
    ensures var trained := Train(s, s.gladiators[k].id, now);
      && trained.money == 900
      && trained.gladiators[k].status == Training
      && var done := TickGame(trained, now + 10000, pick).gladiators[k];
         && done.status == Idle
         && done.task.None?
         && done.health == done.maxHealth as real
         && done.Get(pick(k)) == s.gladiators[k].Get(pick(k)) + 1
         && (forall t :: t != pick(k) ==> done.Get(t) == s.gladiators[k].Get(t))
         && ValidGladiator(done)
  {
    var trained := Train(s, s.gladiators[k].id, now);
    var g := trained.gladiators[k];
    assert HasRunningTask(g) && TaskComplete(g.task.value, now + 10000);
    TrainPreservesValid(s, s.gladiators[k].id, now);
    TickPreservesValid(g, now + 10000, pick(k), trained.settings.cheatMode);
  }

  /** Which attribute a finished training raises is decided by the draw
      behind `pick`: strength below 1/3, agility below 2/3, otherwise
      stamina, which also lifts the maximum health by 10. */
  lemma TrainingDrawPicksStat(s: GameState, k: nat, now: int, pick: nat -> Stat, r: real)
    requires ValidState(s) && k < |s.gladiators| && s.money >= TrainingCost
    requires now != 0 && !s.settings.cheatMode.enabled
    requires IsDraw(r) && pick(k) == PickStat(r)
    ensures var g := s.gladiators[k];
      var done := TickGame(Train(s, g.id, now), now + 10000, pick).gladiators[k];
      && (r < 1.0 / 3.0 ==>
            done.strength == g.strength + 1 && done.agility == g.agility && done.stamina == g.stamina)
      && (1.0 / 3.0 <= r < 2.0 / 3.0 ==>
            done.agility == g.agility + 1 && done.strength == g.strength && done.stamina == g.stamina)
      && (r >= 2.0 / 3.0 ==>
            done.stamina == g.stamina + 1 && done.maxHealth == g.maxHealth + 10
            && done.strength == g.strength && done.agility == g.agility)
  {
    var trained := Train(s, s.gladiators[k].id, now);
    var g := trained.gladiators[k];
    assert HasRunningTask(g) && TaskComplete(g.task.value, now + 10000);
  }

  /** Healing a gladiator at 10 of 50 costs 200 and takes 8000 ms; the tick
      that far on restores it to 50 and rests it. */
  lemma HealingCycle(s: GameState, k: nat, now: int, pick: nat -> Stat)
    requires ValidState(s) && k < |s.gladiators| && s.money == 1000 && now != 0
    requires s.gladiators[k].health == 10.0 && s.gladiators[k].maxHealth == 50
    ensures HealingCost(s.gladiators[k]) == 200
    ensures var healed := Heal(s, s.gladiators[k].id, now);
      && healed.money == 800
      && healed.gladiators[k].task == Some(Task(now, 8000.0))
      && var done := TickGame(healed, now + 8000, pick).gladiators[k];
         && done.status == Idle && done.health == 50.0 && done.task.None?
  {
    var id := s.gladiators[k].id;
    assert FindGladiator(s.gladiators, id).value == k;
    assert Ceil(40.0) == 40;
  }
}

=== FILE: staff.dfy ===
/** Support staff: listing a new static candidate, hiring a listed one, and
    the one staff effect the game applies, the accountant's bonus on fight
    winnings. */
module Staff {
  import opened Ludus

  lemma StaticCandidatesValid()
    ensures ValidStaff(StaticStaffCandidates)
    ensures forall i :: 0 <= i < |StaticStaffCandidates| ==> StaticStaffCandidates[i].id.None?
  {
  }

  // ---------------------------------------------------------------------------
  // Effects consulted by role
  // ---------------------------------------------------------------------------

  /** The value of the first accountant's effect, or 0 without one. */
  function AccountantBonus(staff: seq<StaffMember>): (b: real)
    ensures (forall i :: 0 <= i < |staff| ==> staff[i].role != "Accountant") ==> b == 0.0
    ensures forall i :: 0 <= i < |staff| && staff[i].role == "Accountant" ==>
      exists j :: 0 <= j <= i && staff[j].role == "Accountant" && b == staff[j].effect.value
        && forall k :: 0 <= k < j ==> staff[k].role != "Accountant"
    ensures ValidStaff(staff) ==> b >= 0.0
  {
    match IndexWhere(staff, (m: StaffMember) => m.role == "Accountant")
    case None => 0.0
    case Some(j) => staff[j].effect.value
  }

  /** `Math.floor(200 * (1 + bonus))`. */
  function FightWinnings(staff: seq<StaffMember>): (w: int)
    ensures ValidStaff(staff) ==> w >= 200
    ensures (forall i :: 0 <= i < |staff| ==> staff[i].role != "Accountant") ==> w == 200
  {
    (FightReward * (1.0 + AccountantBonus(staff))).Floor
  }

  /** With the static accountant on staff a win pays 220. */
  lemma AccountantWinnings(staff: seq<StaffMember>)
    requires |staff| > 0 && staff[0] == StaticStaffCandidates[3]
    ensures FightWinnings(staff) == 220
  {
    assert AccountantBonus(staff) == 0.1;
  }

  // ---------------------------------------------------------------------------
  // Hiring
  // ---------------------------------------------------------------------------

  /** The test hiring filters the listing by: a key other than the hire's. */
  function OtherKey(m: StaffMember): StaffMember -> bool {
    (a: StaffMember) => KeyOf(a) != KeyOf(m)
  }

  /** `availableStaff.filter(a => (a.id || a.name) !== (m.id || m.name))`. */
  function Unlist(available: seq<StaffMember>, m: StaffMember): seq<StaffMember> {
    Filter(available, OtherKey(m))
  }

  /** Hiring charges the cost, appends the member to the staff, and removes
      every listing with the same key; without the money nothing happens. */
  function Hire(s: GameState, m: StaffMember): (r: GameState)
    ensures s.money < m.cost ==> r == s
    ensures s.money >= m.cost ==>
      && r.money == s.money - m.cost
      && r.staff == s.staff + [m]
      && r == s.(money := r.money, staff := r.staff, availableStaff := r.availableStaff)
      && (forall i :: 0 <= i < |r.availableStaff| ==>
            KeyOf(r.availableStaff[i]) != KeyOf(m) && r.availableStaff[i] in s.availableStaff)
      && (forall i :: 0 <= i < |s.availableStaff| && KeyOf(s.availableStaff[i]) != KeyOf(m) ==>
            s.availableStaff[i] in r.availableStaff)
    // hiring someone who is not listed leaves the listing exactly as it was
    ensures s.money >= m.cost && (forall i :: 0 <= i < |s.availableStaff| ==> KeyOf(s.availableStaff[i]) != KeyOf(m)) ==>
      r.availableStaff == s.availableStaff
  {
    if s.money >= m.cost then
      assert (forall i :: 0 <= i < |s.availableStaff| ==> KeyOf(s.availableStaff[i]) != KeyOf(m)) ==>
        Unlist(s.availableStaff, m) == s.availableStaff
      by {
        if forall i :: 0 <= i < |s.availableStaff| ==> KeyOf(s.availableStaff[i]) != KeyOf(m) {
          FilterAllKept(s.availableStaff, OtherKey(m));
        }
      }
      s.(money := s.money - m.cost, staff := s.staff + [m], availableStaff := Unlist(s.availableStaff, m))
    else s
  }

  /** Hiring the one listing with the hire's key cuts out exactly that
      position; the other listings keep their order. */
  lemma HireUnlistsOne(s: GameState, m: StaffMember, k: nat)
    requires s.money >= m.cost
    requires k < |s.availableStaff| && KeyOf(s.availableStaff[k]) == KeyOf(m)
    requires forall j :: 0 <= j < |s.availableStaff| && j != k ==> KeyOf(s.availableStaff[j]) != KeyOf(m)
    ensures Hire(s, m).availableStaff == s.availableStaff[..k] + s.availableStaff[k + 1..]
  {
    FilterDropsOne(s.availableStaff, OtherKey(m), k);
  }

  lemma HirePreservesValid(s: GameState, m: StaffMember)
    requires ValidState(s)
    requires m in s.availableStaff
    ensures ValidState(Hire(s, m))
  {
    var r := Hire(s, m);
    forall i | 0 <= i < |r.availableStaff|
      ensures r.availableStaff[i].effect.value >= 0.0
    {
      if s.money >= m.cost {
        assert r.availableStaff[i] in s.availableStaff;
      }
    }
  }

  // ---------------------------------------------------------------------------
  // Listing a static candidate
  // ---------------------------------------------------------------------------

  predicate NameIn(name: string, ss: seq<StaffMember>) {
    exists i :: 0 <= i < |ss| && ss[i].name == name
  }

  /** The static candidates neither hired nor already listed, by name. */
  function Unhired(s: GameState): (u: seq<StaffMember>)
    ensures forall i :: 0 <= i < |u| ==>
      u[i] in StaticStaffCandidates && !NameIn(u[i].name, s.staff) && !NameIn(u[i].name, s.availableStaff)
    ensures forall i :: 0 <= i < |StaticStaffCandidates| ==>
      var c := StaticStaffCandidates[i];
      !NameIn(c.name, s.staff) && !NameIn(c.name, s.availableStaff) ==> c in u
  {
    Filter(StaticStaffCandidates,
      (c: StaffMember) => !NameIn(c.name, s.staff) && !NameIn(c.name, s.availableStaff))
  }

  /** The three `Math.random()` draws that dress a generated staff member, in
      call order: its cost, its effect kind and its effect value. */
  datatype AiStaffDraws = AiStaffDraws(cost: real, kind: real, value: real)

  predicate ValidAiStaffDraws(d: AiStaffDraws) {
    IsDraw(d.cost) && IsDraw(d.kind) && IsDraw(d.value)
  }

  /** A staff member made from a generated name and role at time `now`: it
      costs 300..799 and speeds up training or healing by 5% to 15%. */
  function AiStaffMember(name: string, role: string, now: int, d: AiStaffDraws): (m: StaffMember)
    requires ValidAiStaffDraws(d)
    ensures m.id == Some(now) && m.name == name && m.role == role
    ensures 300 <= m.cost < 800
    ensures m.effect.kind == TrainingSpeed <==> d.kind < 0.5
    ensures m.effect.kind == TrainingSpeed || m.effect.kind == HealingSpeed
    ensures 0.05 <= m.effect.value < 0.15
  {
    var kind := if DrawIndex(d.kind, 2) == 0 then TrainingSpeed else HealingSpeed;
    StaffMember(Some(now), name, role, 300 + DrawIndex(d.cost, 500), Effect(kind, 0.05 + d.value * 0.1))
  }

  /** Whether a generated reply, already split into name and role, can be
      used: the call was made and both parts are non-empty. */
  predicate UsableReply(s: Settings, parsed: Option<(string, string)>) {
    var r := AiReply(s, parsed);
    r.Some? && r.value.0 != "" && r.value.1 != ""
  }

  /** Listing a new staff candidate. With text generation off, a uniformly
      drawn unlisted, unhired static candidate is put at the front of the
      listing, and nothing changes when none is left. With it on, a usable
      generated name and role put a freshly made member at the front, and
      anything else changes nothing. */
  function GenerateStaff(s: GameState, draw: real, parsed: Option<(string, string)>,
                         now: int, ad: AiStaffDraws): (t: GameState)
    requires IsDraw(draw) && ValidAiStaffDraws(ad)
    ensures t == s.(availableStaff := t.availableStaff)
    ensures !s.settings.useAI && |Unhired(s)| == 0 ==> t == s
    ensures !s.settings.useAI && |Unhired(s)| > 0 ==>
      && |t.availableStaff| == |s.availableStaff| + 1
      && t.availableStaff[1..] == s.availableStaff
      && t.availableStaff[0] in StaticStaffCandidates
      && !NameIn(t.availableStaff[0].name, s.staff)
      && !NameIn(t.availableStaff[0].name, s.availableStaff)
    ensures s.settings.useAI && !UsableReply(s.settings, parsed) ==> t == s
    ensures s.settings.useAI && UsableReply(s.settings, parsed) ==>
      && |t.availableStaff| == |s.availableStaff| + 1
      && t.availableStaff[1..] == s.availableStaff
      && t.availableStaff[0] == AiStaffMember(parsed.value.0, parsed.value.1, now, ad)
  {
    if s.settings.useAI then
      if UsableReply(s.settings, parsed)
      then s.(availableStaff := [AiStaffMember(parsed.value.0, parsed.value.1, now, ad)] + s.availableStaff)
      else s
    else
      var u := Unhired(s);
      if |u| > 0 then s.(availableStaff := [u[DrawIndex(draw, |u|)]] + s.availableStaff) else s
  }

  /** Listing a static candidate keeps every listed name distinct from the
      others and, when that held before, from every hired name. */
  lemma GenerateStaffKeepsNamesFresh(s: GameState, r: real, parsed: Option<(string, string)>,
                                     now: int, ad: AiStaffDraws)
    requires IsDraw(r) && ValidAiStaffDraws(ad) && !s.settings.useAI
    requires forall i, j :: 0 <= i < j < |s.availableStaff| ==> s.availableStaff[i].name != s.availableStaff[j].name
    ensures var a := GenerateStaff(s, r, parsed, now, ad).availableStaff;
      forall i, j :: 0 <= i < j < |a| ==> a[i].name != a[j].name
    ensures var a := GenerateStaff(s, r, parsed, now, ad).availableStaff;
      (forall i, j :: 0 <= i < |s.availableStaff| && 0 <= j < |s.staff| ==> s.availableStaff[i].name != s.staff[j].name) ==>
      (forall i, j :: 0 <= i < |a| && 0 <= j < |s.staff| ==> a[i].name != s.staff[j].name)
  {
    var a := GenerateStaff(s, r, parsed, now, ad).availableStaff;
    if |Unhired(s)| > 0 {
      forall i, j | 0 <= i < j < |a|
        ensures a[i].name != a[j].name
      {
        if i == 0 {
          assert a[j] == s.availableStaff[j - 1];
        } else {
          assert a[i] == s.availableStaff[i - 1] && a[j] == s.availableStaff[j - 1];
        }
      }
      if forall i, j :: 0 <= i < |s.availableStaff| && 0 <= j < |s.staff| ==> s.availableStaff[i].name != s.staff[j].name {
        forall i, j | 0 <= i < |a| && 0 <= j < |s.staff|
          ensures a[i].name != s.staff[j].name
        {
          if i > 0 {
            assert a[i] == s.availableStaff[i - 1];
          }
        }
      }
    }
  }

  lemma GenerateStaffPreservesValid(s: GameState, r: real, parsed: Option<(string, string)>,
                                    now: int, ad: AiStaffDraws)
    requires ValidState(s) && IsDraw(r) && ValidAiStaffDraws(ad)
    ensures ValidState(GenerateStaff(s, r, parsed, now, ad))
  {
    StaticCandidatesValid();
    var t := GenerateStaff(s, r, parsed, now, ad);
    if |t.availableStaff| > |s.availableStaff| {
      assert t.availableStaff[0].effect.value >= 0.0;
      forall i | 0 <= i < |t.availableStaff|
        ensures t.availableStaff[i].effect.value >= 0.0
      {
        if i > 0 {
          assert t.availableStaff[i] == s.availableStaff[i - 1];
        }
      }
    }
  }
}

=== FILE: tick.dfy ===
/** The once-a-second game tick. For each gladiator independently it either
    advances a running task (finishing it when its time is up) or, for a
    resting gladiator, applies the slow passive regeneration. */
module Tick {
  import opened Ludus

  /** The tick looks at a task only when its start is set (a start of 0 reads
      as unset) and the status is one of the task statuses. */
  predicate HasRunningTask(g: Gladiator) {
    g.task.Some? && g.task.value.start != 0 && IsTaskStatus(g.status)
  }

  /** Whether the progress fraction `(now - start) / duration` has reached 1,
      with IEEE semantics for a zero or negative duration: a zero duration
      completes as soon as any time has passed. */
  predicate TaskComplete(t: Task, now: int) {
    var elapsed := (now - t.start) as real;
    if t.duration > 0.0 then elapsed >= t.duration
    else if t.duration == 0.0 then elapsed > 0.0
    else elapsed <= t.duration
  }

  lemma CompleteMeansProgressReachedOne(t: Task, now: int)
    requires t.duration != 0.0
    ensures TaskComplete(t, now) <==> (now - t.start) as real / t.duration >= 1.0
  {
    var e := (now - t.start) as real;
    var d := t.duration;
    assert e == (e / d) * d;
    if d > 0.0 {
      if e / d >= 1.0 {
        assert (e / d) * d >= 1.0 * d;
      } else {
        assert (e / d) * d < 1.0 * d;
      }
    } else {
      if e / d >= 1.0 {
        assert (e / d) * d <= 1.0 * d;
      } else {
        assert (e / d) * d > 1.0 * d;
      }
    }
  }

  /** +1 per training, +2 when cheat mode and its double-gain switch are on. */
  function TrainingGain(c: CheatMode): (gain: int)
    ensures gain == 2 <==> c.enabled && c.doubleTrainingGain
    ensures gain == 1 || gain == 2
  {
    if c.enabled && c.doubleTrainingGain then 2 else 1
  }

  /** The completion effect of a finished task; `pick` is the attribute the
      completion draw selected (only training uses it). */
  function CompleteTask(g: Gladiator, pick: Stat, cheat: CheatMode): Gladiator {
    var cleared := g.(task := None);
    match g.status
    case Training =>
      var raised := cleared.Raise(pick, TrainingGain(cheat));
      var resized := if pick == Stamina then raised.(maxHealth := raised.stamina * 10) else raised;
      resized.(status := Idle, health := resized.maxHealth as real)
    case Healing => cleared.(status := Idle, health := g.maxHealth as real)
    case _ => cleared
  }

  /** A resting, hurt gladiator regenerates once more than the interval has
      passed since the last regeneration. */
  predicate PassiveHealDue(g: Gladiator, now: int) {
    && (g.status == Idle || g.status == Injured)
    && g.health < g.maxHealth as real
    && now > g.lastPassiveHeal + PassiveHealInterval
  }

  function PassiveHeal(g: Gladiator, now: int): Gladiator {
    var h := MinR(g.maxHealth as real, g.health + PassiveHealAmount as real);
    var st := if h >= g.maxHealth as real && g.status == Injured then Idle else g.status;
    g.(health := h, lastPassiveHeal := now, status := st)
  }

  /** One gladiator's step of the tick. */
  function TickGladiator(g: Gladiator, now: int, pick: Stat, cheat: CheatMode): (r: Gladiator)
    ensures r.id == g.id && r.name == g.name
    // a finished task clears the task fields
    ensures HasRunningTask(g) && TaskComplete(g.task.value, now) ==> r.task.None?
    // finished training: idle, fully healed, exactly the drawn attribute raised
    ensures HasRunningTask(g) && TaskComplete(g.task.value, now) && g.status == Training ==>
      && r.status == Idle
      && r.health == r.maxHealth as real
      && r.Get(pick) == g.Get(pick) + TrainingGain(cheat)
      && (forall s :: s != pick ==> r.Get(s) == g.Get(s))
      && (g.maxHealth == g.stamina * 10 ==> r.maxHealth == r.stamina * 10)
      && (pick == Stamina ==> r.maxHealth == r.stamina * 10)
      && (pick != Stamina ==> r.maxHealth == g.maxHealth)
      && r == g.(strength := r.strength, agility := r.agility, stamina := r.stamina,
                 maxHealth := r.maxHealth, health := r.health, status := Idle, task := None)
    // finished healing: idle at full health, nothing else changes
    ensures HasRunningTask(g) && TaskComplete(g.task.value, now) && g.status == Healing ==>
      r == g.(status := Idle, health := g.maxHealth as real, task := None)
    // a finished fight stays "Fighting" until its outcome is applied
    ensures HasRunningTask(g) && TaskComplete(g.task.value, now) && g.status == Fighting ==>
      r == g.(task := None)
    // an unfinished task leaves the gladiator as it is
    ensures HasRunningTask(g) && !TaskComplete(g.task.value, now) ==> r == g
    // without a running task, the gladiator changes exactly when regeneration is due
    ensures !HasRunningTask(g) ==> (r != g <==> PassiveHealDue(g, now))
    ensures !HasRunningTask(g) && PassiveHealDue(g, now) ==>
      && r.health == MinR(g.maxHealth as real, g.health + 1.0)
      && r.health > g.health
      && r.lastPassiveHeal == now
      && r.status == (if g.status == Injured && r.health == g.maxHealth as real then Idle else g.status)
      && r == g.(health := r.health, lastPassiveHeal := now, status := r.status)
  {
    if HasRunningTask(g) then
      if TaskComplete(g.task.value, now) then CompleteTask(g, pick, cheat) else g
    else if PassiveHealDue(g, now) then PassiveHeal(g, now)
    else g
  }

  /** The tick keeps `0 <= health <= maxHealth == stamina * 10`. */
  lemma TickPreservesValid(g: Gladiator, now: int, pick: Stat, cheat: CheatMode)
    requires ValidGladiator(g)
    ensures ValidGladiator(TickGladiator(g, now, pick, cheat))
  {
    var r := TickGladiator(g, now, pick, cheat);
    if HasRunningTask(g) && TaskComplete(g.task.value, now) && g.status == Training {
      assert g.stamina >= 0;
      assert r.maxHealth >= 0;
    }
  }

  /** The whole tick: every gladiator steps independently; `pick(i)` is the
      completion draw for the gladiator at position `i`. */
  function TickRoster(gs: seq<Gladiator>, now: int, pick: nat -> Stat, cheat: CheatMode): (rs: seq<Gladiator>)
    ensures |rs| == |gs|
    ensures forall i :: 0 <= i < |gs| ==> rs[i] == TickGladiator(gs[i], now, pick(i), cheat)
  {
    seq(|gs|, i requires 0 <= i < |gs| => TickGladiator(gs[i], now, pick(i), cheat))
  }

  /** The tick neither adds, removes nor reorders gladiators, and keeps every
      one of them valid. */
  lemma TickRosterPreservesValid(gs: seq<Gladiator>, now: int, pick: nat -> Stat, cheat: CheatMode)
    requires ValidRoster(gs)
    ensures ValidRoster(TickRoster(gs, now, pick, cheat))
    ensures forall i :: 0 <= i < |gs| ==> TickRoster(gs, now, pick, cheat)[i].id == gs[i].id
  {
    var rs := TickRoster(gs, now, pick, cheat);
    forall i | 0 <= i < |gs|
      ensures ValidGladiator(rs[i])
    {
      TickPreservesValid(gs[i], now, pick(i), cheat);
    }
  }

  /** A tick at which nothing is due leaves the roster equal to itself. */
  lemma QuietTickIsIdentity(gs: seq<Gladiator>, now: int, pick: nat -> Stat, cheat: CheatMode)
    requires forall i :: 0 <= i < |gs| ==> !HasRunningTask(gs[i]) && !PassiveHealDue(gs[i], now)
    ensures TickRoster(gs, now, pick, cheat) == gs
  {
  }

  /** The tick applied to the game: only the roster changes, using the cheat
      settings in force. */
  function TickGame(s: GameState, now: int, pick: nat -> Stat): (r: GameState)
    ensures r == s.(gladiators := r.gladiators)
    ensures |r.gladiators| == |s.gladiators|
    ensures forall i :: 0 <= i < |s.gladiators| ==>
      r.gladiators[i] == TickGladiator(s.gladiators[i], now, pick(i), s.settings.cheatMode)
  {
    s.(gladiators := TickRoster(s.gladiators, now, pick, s.settings.cheatMode))
  }

  lemma TickGamePreservesValid(s: GameState, now: int, pick: nat -> Stat)
    requires ValidState(s)
    ensures ValidState(TickGame(s, now, pick))
  {
    TickRosterPreservesValid(s.gladiators, now, pick, s.settings.cheatMode);
  }
}
